=== FILE: README.md ===
# Subscription entitlements and tenant administration of a salon back-office

This project models, in Dafny, the decision logic of a multi-tenant beauty-salon
SaaS application:

- the **plan table**: four tiers (trial, pro, premium, elite), their prices in
  cents, their feature records and the feature labels;
- the **subscription hook**: how missing billing data is defaulted, how the days
  left in a trial are counted, when a subscription counts as expired, and the
  `checkPermission` / `checkLimit` decisions;
- the **sidebar gating**: the menu built from the tenant slug, which items the
  subscription locks, where a locked item links, and which item is active;
- the **tenant-admin route**: the slug derived from a company name, the mapping
  of a stored tenant row to the `Company` record, and the record inserted for a
  new tenant;
- the **super-admin listing**: the classification of application users and the
  map-then-filter that returns the super admins;
- **`getInitials`**: splitting, truncation and its fallbacks;
- the **tenant selector**: the sync step that runs on login, and the switch
  operation, as transitions over (current tenant, stored tenant id, hydrated).

Everything is immutable datatypes and pure functions. The one method is the
user listing, which is checked against a one-pass reference definition.
Dates are abstract day numbers. The clock (`today`), the tenant list, the
logged-in user and the super-admin flag are parameters. Browser storage is a
field of the selector state.

Files: `wrappers.dfy` (Option), `js_text.dfy` (the JavaScript string operations
the code relies on: `\s`, `\w`, ASCII case mapping, `slice`, `trim`,
`includes`, `||` on strings), `subscription.dfy`, `use_subscription.dfy`,
`sidebar.dfy`, `companies.dfy`, `admin_users.dfy`, `utils.dfy`,
`tenant_context.dfy`.

## Cross-module mismatches

The modules do not agree on some string values. The model keeps each module
as written and proves where they disagree:

- The company mapper defaults a missing plan id to `'starter'`, which is not a
  plan tier (`Companies.DefaultPlanIdIsNoTier`).
- New tenants get status `'trial'`, but the hook's statuses are `'active'`,
  `'canceled'`, `'past_due'` and `'trialing'`. The hook compares strings, so
  an unknown status is never a trial and never expires
  (`Companies.NewTenantStatusUnknownToHook`,
  `SubscriptionHook.UnrecognisedStatusNeverExpires`).
- The hook indexes the plan table with the plan id unchecked, so an unknown id
  would fail when a feature is read. The model types the hook's plan id as the
  four-valued `PlanTier`, so only a valid tier can reach it.

## Model

| member | source | states |
|---|---|---|
| Subscription.ParseTier | src/config/subscription.ts:2 | only the four tier keys read back as a tier; every other string, `'starter'` included, names none |
| Subscription.FeatureOf | src/config/subscription.ts:16-25 | six feature keys hold booleans, `maxEmployees` holds a limit and `supportPriority` holds a level |
| Subscription.Plan | src/config/subscription.ts:28-93 | each plan is stored under its own id; only the trial is free |
| Subscription.PlanIdMatchesKey | src/config/subscription.ts:28-93 | a plan's id equals its key, and the key string reads back to the tier |
| Subscription.TrialAndEliteGrantEverything | src/config/subscription.ts:29-92 | trial and elite enable every module, have no employee limit and get VIP support |
| Subscription.ProIsBasic | src/config/subscription.ts:45-60 | pro enables no module, allows 2 employees and gets standard support |
| Subscription.PremiumShape | src/config/subscription.ts:61-76 | premium enables finance, stock and gallery, disables loyalty club, multi-unit and custom domain, and allows 5 employees |
| Subscription.ModulesNested | src/config/subscription.ts:45-92 | a module enabled on pro is enabled on premium, and a module enabled on premium is enabled on elite |
| Subscription.PricesStrictlyIncrease | src/config/subscription.ts:32-80 | a higher tier costs strictly more |
| Subscription.FeatureLabel | src/config/subscription.ts:95-104 | every feature key has a non-empty label |
| Subscription.FeatureLabelsDistinct | src/config/subscription.ts:95-104 | no two feature keys share a label |
| SubscriptionHook.ParseStatus | src/hooks/useSubscription.ts:9 | a status string reads back to itself; it is unrecognised exactly when it is none of the four declared values |
| SubscriptionHook.StatusRoundTrip | src/hooks/useSubscription.ts:9 | parsing and printing a status are inverse; every parsed status is canonical |
| SubscriptionHook.ResolveSubscription | src/hooks/useSubscription.ts:21-27 | a missing plan becomes trial. A missing or empty status becomes trialing; any other status string is kept, known or not. The trial end date is always present and defaults to 14 days from now |
| SubscriptionHook.IsTrial | src/hooks/useSubscription.ts:34 | a subscription is a trial exactly when its status string is `'trialing'` |
| SubscriptionHook.DaysRemaining | src/hooks/useSubscription.ts:36-41 | never negative; 0 outside a trial or without a valid end date; otherwise the days until the end date, when that is in the future |
| SubscriptionHook.IsExpired | src/hooks/useSubscription.ts:43-48 | expired exactly when the subscription is a trial whose end date is missing, invalid or not after today |
| SubscriptionHook.ExpiryRule | src/hooks/useSubscription.ts:43-48 | active, canceled, past-due and unrecognised statuses are never expired; a trial is expired exactly when its end date is invalid or not in the future |
| SubscriptionHook.UnrecognisedStatusNeverExpires | src/hooks/useSubscription.ts:23-59 | billing data with a status outside the four values is kept as is, is never a trial, has 0 days left, never expires, and its modules follow the plan's flags |
| SubscriptionHook.CheckPermission | src/hooks/useSubscription.ts:51-59 | expired denies everything; otherwise a module follows the plan's flag and the limit and support keys are allowed |
| SubscriptionHook.CheckLimit | src/hooks/useSubscription.ts:63-72 | expired denies; `'unlimited'` allows; a numeric limit allows exactly counts below it; a non-limit key never allows |
| SubscriptionHook.ExpiredDeniesEverything | src/hooks/useSubscription.ts:51-72 | once expired, every permission and every limit check is false |
| SubscriptionHook.CheckLimitMonotone | src/hooks/useSubscription.ts:69 | a limit with room at count n has room at every smaller count |
| SubscriptionHook.DefaultIsFullTrial | src/hooks/useSubscription.ts:21-58 | a tenant without billing data starts a 14-day trial that is not expired and permits every feature |
| TenantContext.FindTenant | src/contexts/tenant-context.tsx:25 | returns the first tenant with the id, and nothing exactly when no tenant has it |
| TenantContext.Init | src/contexts/tenant-context.tsx:17 | the initial current tenant is the first of the list, and the state is not yet hydrated |
| TenantContext.Sync | src/contexts/tenant-context.tsx:21-41 | no user: nothing changes. Tenant user with a company: pinned to the first tenant with that id and stored, or unchanged if it is unknown. Otherwise the first tenant named by the stored id is restored. Hydrated once a user exists |
| TenantContext.SetCurrentTenant | src/contexts/tenant-context.tsx:43-49 | a no-op for non-super-admins; for super admins sets both the current tenant and the stored id |
| TenantContext.CoherencePreserved | src/contexts/tenant-context.tsx:21-49 | if the stored id names the current tenant, it still does after either transition |
| TenantContext.SyncIdempotent | src/contexts/tenant-context.tsx:21-41 | running the sync step twice equals running it once |
| Sidebar.SlugFor | src/components/layout/Sidebar.tsx:42 | the tenant's slug, or `'demo'` when there is no tenant or its slug is empty |
| Sidebar.MenuSections | src/components/layout/Sidebar.tsx:43-76 | the three sections in layout order; every link is `"/" + slug + "/" + segment` with a non-empty, slash-free segment, and the captions and permission keys follow the layout |
| Sidebar.IsLocked | src/components/layout/Sidebar.tsx:131 | an item without a permission key is never locked; one with a key is locked exactly when that permission is denied |
| Sidebar.LinkTarget | src/components/layout/Sidebar.tsx:137 | a locked item links to `'#'`, an unlocked one to its own href |
| Sidebar.IsActive | src/components/layout/Sidebar.tsx:128 | an item is active exactly when the path begins with its link |
| Sidebar.ViewOf | src/components/layout/Sidebar.tsx:127-137 | an item's view: locked exactly when its permission is denied, `'#'` when locked, its href otherwise, and active exactly when the path starts with its href |
| Sidebar.MenuView | src/components/layout/Sidebar.tsx:38-137 | one view per menu item, under the subscription resolved from the current tenant |
| Sidebar.ProTenantMenu | src/components/layout/Sidebar.tsx:38-137 | a tenant on a running pro plan sees exactly eight locked items, each linking to `'#'`; every other item links to its page |
| Sidebar.DefaultTenantMenu | src/components/layout/Sidebar.tsx:38-137 | with no tenant, or a tenant without billing data, no item is locked and every item links to its page |
| Sidebar.UnlockedItemsLinkThrough | src/components/layout/Sidebar.tsx:127-137 | when no item of a menu is locked, no view is locked and every view links to its item's href |
| Sidebar.ExpiredTenantMenu | src/components/layout/Sidebar.tsx:38-137 | once the tenant's subscription has expired, exactly eight items are locked |
| Sidebar.ActiveFollowsPath | src/components/layout/Sidebar.tsx:128 | a path outside the tenant's root activates no item; a path under an item's link activates that item |
| Sidebar.GatedItemsAreModules | src/components/layout/Sidebar.tsx:56-73 | every permission key in the menu is a boolean module |
| Sidebar.EightGatedItems | src/components/layout/Sidebar.tsx:56-73 | exactly eight menu items carry a permission key |
| Sidebar.ExpiredLocksEveryGatedItem | src/components/layout/Sidebar.tsx:131 | on an expired subscription every gated item, and only those, is locked |
| Sidebar.ProLocksExactlyGated | src/components/layout/Sidebar.tsx:56-73 | on a running pro plan exactly the gated items are locked |
| Sidebar.FullAccessLocksNothing | src/components/layout/Sidebar.tsx:56-73 | on a running trial or elite plan no item is locked |
| Companies.DashWhitespace | src/app/api/admin/companies/route.ts:83 | the result has no whitespace and is no longer than the input |
| Companies.DashWhitespaceRun | src/app/api/admin/companies/route.ts:83 | each maximal whitespace run becomes exactly one dash, and the text on either side is kept |
| Companies.DashWhitespaceKeepsContent | src/app/api/admin/companies/route.ts:83 | replacing whitespace runs keeps every character that is neither whitespace nor a dash, in order |
| Companies.DashWhitespaceFixes | src/app/api/admin/companies/route.ts:83 | a string without whitespace is unchanged by the replacement |
| Companies.KeepSlugChars | src/app/api/admin/companies/route.ts:83 | a character survives exactly when it is in `[A-Za-z0-9_-]` |
| Companies.KeepSlugCharsAppend | src/app/api/admin/companies/route.ts:83 | the deletion works on each part of a string separately, so order and repeats are kept |
| Companies.KeepSlugCharsSnoc | src/app/api/admin/companies/route.ts:83 | one more character is appended to the result exactly when it is in `[A-Za-z0-9_-]` |
| Companies.Slugify | src/app/api/admin/companies/route.ts:83 | a slug consists only of `[a-z0-9_-]`, is no longer than the name, and holds every letter, digit and underscore of the lower-cased name, in order |
| Companies.SlugifyAppend | src/app/api/admin/companies/route.ts:83 | text before the first whitespace is slugged on its own |
| Companies.SlugifyJoinsWords | src/app/api/admin/companies/route.ts:83 | a whitespace run between two parts of a name becomes one dash between their slugs |
| Companies.SlugifyChar | src/app/api/admin/companies/route.ts:83 | a single non-space character is lower-cased and kept exactly when the result is in `[a-z0-9_-]` |
| Companies.SlugifyShape | src/app/api/admin/companies/route.ts:83 | a slug has no whitespace, and every non-dash character in it comes from the lower-cased name |
| Companies.SlugifyIdempotent | src/app/api/admin/companies/route.ts:83 | the slug of a slug is the slug itself |
| Companies.MapRow | src/app/api/admin/companies/route.ts:31-56 | identity fields pass through. Contacts default to `''`, colours to `'#8B5CF6'`/`'#A78BFA'`, plan to `'starter'`, status to `'active'`. The domain is slug + `.beautyflow.app`. Limits are 5 and 100, counters and revenue 0. The update time falls back to the creation time |
| Companies.BuildTenant | src/app/api/admin/companies/route.ts:85-104 | a new tenant has the slug of its name, status `'trial'`, the default theme, locale `'pt-BR'` and time zone `'America/Sao_Paulo'`, and carries the request's fields |
| Companies.Stored | src/app/api/admin/companies/route.ts:106-110 | the inserted row keeps the name, slug and settings of the new tenant |
| Companies.CreateThenListKeepsFields | src/app/api/admin/companies/route.ts:31-104 | listing a created tenant recovers name, full name and document. Email, phone and plan come back when non-empty. Status comes back as `'trial'` |
| Companies.CreateThenListDerivedFields | src/app/api/admin/companies/route.ts:37-104 | listing a created tenant gives the address as `"<address> - , "`, the slug domain and the default colours |
| Companies.DefaultPlanIdIsNoTier | src/app/api/admin/companies/route.ts:43 | a row without a plan id is listed under a plan id that names no tier |
| Companies.NewTenantStatusUnknownToHook | src/app/api/admin/companies/route.ts:96 | a created tenant is listed with a status the subscription hook does not recognise, so billing data with that status is never a trial and never expires |
| AdminUsers.IsSuperAdmin | src/app/api/admin/users/route.ts:42-45 | a founder address, any address containing `admin`, or the role qualifies, and nothing else does; without an email only the role does |
| AdminUsers.AdminSubstringIsLoose | src/app/api/admin/users/route.ts:44 | an address that merely contains `admin` inside a word, such as `badminton@club.com`, qualifies without the role |
| AdminUsers.OrdinaryUserIsNotAdmin | src/app/api/admin/users/route.ts:42-45 | an ordinary address without the role does not qualify |
| AdminUsers.Promote | src/app/api/admin/users/route.ts:42-49 | only the role changes; it becomes `'super_admin'` exactly for users matching the classification, and other users are untouched |
| AdminUsers.SuperAdmins | src/app/api/admin/users/route.ts:41-51 | every listed user has the super-admin role, every matching input user is listed (promoted), and every listed user comes from a matching input user |
| AdminUsers.ListSuperAdmins | src/app/api/admin/users/route.ts:41-51 | the two-pass map-then-filter computes exactly the one-pass listing |
| AdminUsers.SuperAdminsPreserveOrder | src/app/api/admin/users/route.ts:41-51 | ignoring roles, the listing is a subsequence of the input in the same order |
| AdminUsers.NoEmailListedIffRole | src/app/api/admin/users/route.ts:42-45 | a user without an email is listed exactly when it already has the super-admin role |
| Utils.SplitWhitespace | src/lib/utils.ts:10 | splitting yields at least one piece, no piece contains whitespace, and a string starting with a non-space yields a non-empty first piece |
| Utils.SplitOfWord | src/lib/utils.ts:10 | a whitespace-free string is a single piece |
| Utils.SplitWhitespaceRun | src/lib/utils.ts:10 | splitting cuts at each maximal whitespace run: the text before the run is one piece, followed by the pieces of the rest |
| Utils.NonEmpty | src/lib/utils.ts:10 | filtering keeps exactly the non-empty pieces |
| Utils.NonEmptyAppend | src/lib/utils.ts:10 | filtering works on each part of a list separately, keeping order and repeats |
| Utils.NonEmptySnoc | src/lib/utils.ts:10 | one more piece is kept exactly when it is non-empty |
| Utils.Words | src/lib/utils.ts:10 | the words of a value are non-empty and contain no whitespace |
| Utils.WordsOfWord | src/lib/utils.ts:10 | a non-empty, whitespace-free value is exactly one word |
| Utils.WordsSplitAtRun | src/lib/utils.ts:10 | the words of two parts joined by whitespace are the words of the first followed by those of the second |
| Utils.JoinInitials | src/lib/utils.ts:12-13 | for non-empty words, one upper-cased first character per word, in order |
| Utils.GetInitials | src/lib/utils.ts:8-15 | `""` for the empty value. A blank value gives its own first characters, upper-cased. With words and a positive count: the joined initials cut to the count |
| Utils.GetInitialsOpt | src/lib/utils.ts:8 | an omitted count means 2 |
| Utils.WordsOfValue | src/lib/utils.ts:10-11 | a value has words exactly when it is not blank |
| Utils.BlankValueFallsBack | src/lib/utils.ts:11 | a non-empty blank value gives its own first characters, upper-cased |
| Utils.InitialsOfWords | src/lib/utils.ts:12-14 | with words and a count of at least 1, the result has min(words, count) characters, each the upper-cased first letter of the matching word |
| Utils.FallbackNeedsNonPositiveCount | src/lib/utils.ts:14 | with words present, the fallback of the last line is taken only for a count of zero or less |
| Utils.TrimIgnoresPadding | src/lib/utils.ts:10 | whitespace around a non-blank value does not change its trimmed form |
| Utils.InitialsIgnorePadding | src/lib/utils.ts:10-14 | leading and trailing whitespace do not change the initials of a non-blank value, for any count of zero or more |
| Utils.PaddingMattersForNegativeCount | src/lib/utils.ts:14 | with a count of -1, `" ab"` gives `" A"` but `"ab"` gives `"A"` |

## Left out

- Slot availability and conflict detection for the booking flow (`src/app/[tenantSlug]/book/page.tsx:166-228`) are not part of this model. This model covers the entitlement and administration logic only.
- Database access, configuration checks, HTTP responses and error-to-status mapping in both admin routes: these are calls into an external service. `Companies.Stored` stands in for the insert. The database's choice of id and timestamps is a parameter.
- `subscriptionEndDate` in the company mapper (creation date plus one year) and all real date handling: ISO parsing, the current time, day differences. Dates are day numbers. A missing or empty trial end date is `None`: it is falsy, so it takes the 14-day default and is never parsed. A non-empty string that fails to parse is `InvalidDate`.
- SubscriptionHook.ResolveSubscription: reads the clock once, as `today`. The hook reads it twice, first for the default trial end and then when counting the days left. So the real default trial can show 13 days instead of 14.
- Prices are integer cents rather than floating-point numbers.
- Case mapping covers ASCII letters only. Non-ASCII letters (for example `'ß'.toUpperCase()` giving two characters, or the Kelvin sign lower-casing to `k`) are left unchanged. Strings are sequences of Unicode scalar values rather than UTF-16 code units.
- `cn` (`src/lib/utils.ts:4-6`) wraps class-name libraries whose code is not part of this model.
- React specifics: rendering, memoisation, the render-nothing-until-hydrated guard, the `useTenant` provider check, the locked-item alert, the mobile menu, and real `localStorage`. Storage is the `storedTenantId` field.
- The tenant list and the `Tenant` type come from mock data that is not part of this model. `TenantContext.Tenant` keeps only the fields the modelled code reads: the id, the slug and the billing data.
- Menu icons carry no logic and are not modelled. Section titles are kept as data only: `Sidebar.MenuSections` copies them from the layout, and no locking, link or active state depends on them.
- SubscriptionHook.ResolveSubscription: the plan id is one of the four tiers or missing. The hook reads it from untyped data, and a plan id outside the table would make the plan lookup fail; that crash is not modelled.
- Utils.InitialsIgnorePadding: stated only for counts of zero or more. With a negative count the fallback slices the untrimmed value, so padding can change the result (`Utils.PaddingMattersForNegativeCount`).

=== FILE: admin_users.dfy ===
/** The platform-operator listing: every application user is classified as a
    super admin or not, super admins get the `super_admin` role, and only
    they are returned. The database query is not modelled. */
module AdminUsers {
  import opened Wrappers
  import opened JsText

  const SuperAdminRole: string := "super_admin"

  /** The two operator addresses that are always super admins. */
  const FounderEmails: seq<string> := ["geison@beautyflow.app", "oseias@beautyflow.app"]

  /** A row of `app_users`: the two columns the route reads, and the rest. */
  datatype AppUser = AppUser(
    id: string,
    email: Option<string>,
    role: Option<string>,
    otherColumns: map<string, string>)

  /** A founder address, any address containing `admin`, or an existing
      `super_admin` role. */
  function IsSuperAdmin(u: AppUser): (admin: bool)
    ensures u.email.None? ==> (admin <==> u.role == Some(SuperAdminRole))
    ensures u.email.Some? && (u.email.value in FounderEmails || Includes(u.email.value, "admin")) ==> admin
    ensures u.role == Some(SuperAdminRole) ==> admin
    ensures admin && u.role != Some(SuperAdminRole) ==>
      u.email.Some? && (u.email.value in FounderEmails || Includes(u.email.value, "admin"))
  {
    || (u.email.Some? && u.email.value in FounderEmails)
    || (u.email.Some? && Includes(u.email.value, "admin"))
    || u.role == Some(SuperAdminRole)
  }

  /** The `map` step: a super admin gets the role, anyone else is unchanged. */
  function Promote(u: AppUser): (p: AppUser)
    ensures p.id == u.id && p.email == u.email && p.otherColumns == u.otherColumns
    ensures p.role == Some(SuperAdminRole) <==> IsSuperAdmin(u)
    ensures !IsSuperAdmin(u) ==> p == u
  {
    if IsSuperAdmin(u) then u.(role := Some(SuperAdminRole)) else u
  }

  /** The listing in one pass: each super admin, promoted, in input order. */
  function SuperAdmins(users: seq<AppUser>): (r: seq<AppUser>)
    ensures |r| <= |users|
    ensures forall a :: a in r ==> a.role == Some(SuperAdminRole)
    ensures forall u :: u in users && IsSuperAdmin(u) ==> Promote(u) in r
    ensures forall a :: a in r ==> exists u :: u in users && IsSuperAdmin(u) && a == Promote(u)
  {
    if users == [] then []
    else (if IsSuperAdmin(users[0]) then [Promote(users[0])] else []) + SuperAdmins(users[1..])
  }

  lemma {:induction false} SuperAdminsAppend(a: seq<AppUser>, b: seq<AppUser>)
    ensures SuperAdmins(a + b) == SuperAdmins(a) + SuperAdmins(b)
  {
    if a == [] {
      assert a + b == b;
    } else {
      assert (a + b)[1..] == a[1..] + b;
      SuperAdminsAppend(a[1..], b);
    }
  }

  /** Extending the input by one user extends the listing by that user,
      promoted, exactly when it is a super admin. */
  lemma SuperAdminsStep(users: seq<AppUser>, k: nat)
    requires k < |users|
    ensures SuperAdmins(users[..k + 1])
         == SuperAdmins(users[..k]) + (if IsSuperAdmin(users[k]) then [Promote(users[k])] else [])
  {
    assert users[..k + 1] == users[..k] + [users[k]];
    SuperAdminsAppend(users[..k], [users[k]]);
    assert [users[k]][1..] == [];
  }

  /** The route's `map` then `filter` over the fetched users. */
  method ListSuperAdmins(users: seq<AppUser>) returns (admins: seq<AppUser>)
    ensures admins == SuperAdmins(users)
  {
    var mapped: seq<AppUser> := [];
    var i := 0;
    while i < |users|
      invariant 0 <= i <= |users|
      invariant |mapped| == i
      invariant forall j :: 0 <= j < i ==> mapped[j] == Promote(users[j])
    {
      mapped := mapped + [Promote(users[i])];
      i := i + 1;
    }
    admins := [];
    var k := 0;
    while k < |mapped|
      invariant 0 <= k <= |mapped|
      invariant admins == SuperAdmins(users[..k])
    {
      SuperAdminsStep(users, k);
      if mapped[k].role == Some(SuperAdminRole) {
        admins := admins + [mapped[k]];
      }
      k := k + 1;
    }
    assert users[..k] == users;
  }

  /** The address test is a plain substring match: an address that merely
      contains `admin` inside a word qualifies. */
  lemma AdminSubstringIsLoose(id: string)
    ensures IsSuperAdmin(AppUser(id, Some("badminton@club.com"), None, map[]))
  {
    var email := "badminton@club.com";
    assert email[1..] == "adminton@club.com";
    assert "admin" <= email[1..];
    assert Includes(email, "admin");
  }

  /** An ordinary address without the role is not a super admin. */
  lemma OrdinaryUserIsNotAdmin(id: string)
    ensures !IsSuperAdmin(AppUser(id, Some("ana@salao.com"), None, map[]))
  {
    MissingCharExcludes("ana@salao.com", "admin", 'd');
  }

  /** A user without an email is listed exactly when it already has the role. */
  lemma NoEmailListedIffRole(users: seq<AppUser>, u: AppUser)
    requires u in users && u.email.None?
    ensures Promote(u) in SuperAdmins(users) <==> u.role == Some(SuperAdminRole)
  {
  }

  /** A user with the role cleared, for comparing rows across the listing. */
  function WithoutRole(u: AppUser): AppUser {
    u.(role := None)
  }

  function StripRoles(users: seq<AppUser>): (r: seq<AppUser>)
    ensures |r| == |users|
    ensures forall i :: 0 <= i < |r| ==>
      r[i].role.None? && r[i].id == users[i].id && r[i].email == users[i].email
  {
    if users == [] then [] else [WithoutRole(users[0])] + StripRoles(users[1..])
  }

  /** `a` is `b` with some elements deleted, order kept. */
  predicate IsSubsequence(a: seq<AppUser>, b: seq<AppUser>)
    decreases |b|
  {
    if a == [] then true
    else if b == [] then false
    else (a[0] == b[0] && IsSubsequence(a[1..], b[1..])) || IsSubsequence(a, b[1..])
  }

  /** Apart from the role, the listing is the input with some users deleted
      and the order kept. */
  lemma {:induction false} SuperAdminsPreserveOrder(users: seq<AppUser>)
    ensures IsSubsequence(StripRoles(SuperAdmins(users)), StripRoles(users))
  {
    if users != [] {
      SuperAdminsPreserveOrder(users[1..]);
      var rest := SuperAdmins(users[1..]);
      if IsSuperAdmin(users[0]) {
        assert SuperAdmins(users) == [Promote(users[0])] + rest;
        assert StripRoles([Promote(users[0])] + rest)[1..] == StripRoles(rest) by {
          assert ([Promote(users[0])] + rest)[1..] == rest;
        }
      } else {
        assert SuperAdmins(users) == rest;
        SkipHead(StripRoles(rest), StripRoles(users));
      }
    }
  }

  lemma SkipHead(a: seq<AppUser>, b: seq<AppUser>)
    requires b != [] && IsSubsequence(a, b[1..])
    ensures IsSubsequence(a, b)
  {
  }
}

=== FILE: companies.dfy ===
/** The tenant-administration route: the slug derived from a company name,
    the mapping of a stored tenant row to the `Company` shape the admin panel
    shows, and the record built for a new tenant. Database calls, HTTP status
    handling and date arithmetic are not modelled. */
module Companies {
  import opened Wrappers
  import opened JsText
  import Subscription
  import SubscriptionHook

  // ---------------------------------------------------------------- slug

  /** The characters `[^\w\-]` does not match, i.e. the ones the last step keeps. */
  predicate IsKept(c: char) {
    IsWordChar(c) || c == '-'
  }

  /** The characters a slug can consist of. */
  predicate IsSlugChar(c: char) {
    IsLowerAscii(c) || ('0' <= c <= '9') || c == '_' || c == '-'
  }

  /** `s.replace(/\s+/g, '-')`: every maximal whitespace run becomes one dash. */
  function DashWhitespace(s: string): (r: string)
    ensures NoWhitespace(r)
    ensures |r| <= |s|
    decreases |s|
  {
    if s == [] then []
    else if IsWhitespace(s[0]) then "-" + DashWhitespace(TrimStart(s[1..]))
    else [s[0]] + DashWhitespace(s[1..])
  }

  /** Replacing whitespace introduces no character but the dash. */
  lemma {:induction false} DashWhitespaceChars(s: string)
    ensures forall c :: c in DashWhitespace(s) ==> c in s || c == '-'
    decreases |s|
  {
    if s != [] {
      if IsWhitespace(s[0]) {
        DashWhitespaceChars(TrimStart(s[1..]));
        assert forall c :: c in s[1..] ==> c in s;
      } else {
        DashWhitespaceChars(s[1..]);
        assert forall c :: c in s[1..] ==> c in s;
      }
    }
  }

  /** `s.replace(/[^\w\-]+/g, '')`: every character outside `[A-Za-z0-9_-]` is deleted. */
  function KeepSlugChars(s: string): (r: string)
    ensures |r| <= |s|
    ensures forall i :: 0 <= i < |r| ==> IsKept(r[i])
    ensures forall c :: c in r <==> c in s && IsKept(c)
  {
    if s == [] then []
    else if IsKept(s[0]) then [s[0]] + KeepSlugChars(s[1..])
    else KeepSlugChars(s[1..])
  }

  /** `name.toLowerCase().replace(/\s+/g, '-').replace(/[^\w\-]+/g, '')`. */
  function Slugify(name: string): (slug: string)
    ensures forall i :: 0 <= i < |slug| ==> IsSlugChar(slug[i])
    ensures |slug| <= |name|
    // The letters, digits and underscores of the lower-cased name all survive, in order.
    ensures WordContent(slug) == WordContent(Lower(name))
  {
    var lowered := Lower(name);
    assert forall c :: c in lowered ==> !IsUpperAscii(c);
    DashWhitespaceChars(lowered);
    var dashed := DashWhitespace(lowered);
    DashWhitespaceKeepsContent(lowered);
    WordContentOfContent(dashed);
    WordContentOfContent(lowered);
    WordContentOfKept(dashed);
    KeepSlugChars(dashed)
  }

  /** The letters, digits and underscores of `s`, in order. */
  function WordContent(s: string): string {
    if s == [] then []
    else if IsWordChar(s[0]) then [s[0]] + WordContent(s[1..])
    else WordContent(s[1..])
  }

  lemma {:induction false} WordContentOfContent(s: string)
    ensures WordContent(Content(s)) == WordContent(s)
  {
    if s != [] {
      WordContentOfContent(s[1..]);
    }
  }

  lemma {:induction false} WordContentOfKept(s: string)
    ensures WordContent(KeepSlugChars(s)) == WordContent(s)
  {
    if s != [] {
      WordContentOfKept(s[1..]);
    }
  }

  /** The characters other than whitespace and dashes, in order. */
  function Content(s: string): string {
    if s == [] then []
    else if IsWhitespace(s[0]) || s[0] == '-' then Content(s[1..])
    else [s[0]] + Content(s[1..])
  }

  lemma {:induction false} TrimStartKeepsContent(s: string)
    ensures Content(TrimStart(s)) == Content(s)
  {
    if s != [] && IsWhitespace(s[0]) {
      TrimStartKeepsContent(s[1..]);
    }
  }

  /** Turning whitespace runs into dashes keeps every other character, in order. */
  lemma {:induction false} DashWhitespaceKeepsContent(s: string)
    ensures Content(DashWhitespace(s)) == Content(s)
    decreases |s|
  {
    if s != [] {
      if IsWhitespace(s[0]) {
        var rest := TrimStart(s[1..]);
        assert ("-" + DashWhitespace(rest))[1..] == DashWhitespace(rest);
        DashWhitespaceKeepsContent(rest);
        TrimStartKeepsContent(s[1..]);
      } else {
        assert ([s[0]] + DashWhitespace(s[1..]))[1..] == DashWhitespace(s[1..]);
        DashWhitespaceKeepsContent(s[1..]);
      }
    }
  }

  /** A string without whitespace has nothing to replace. */
  lemma {:induction false} DashWhitespaceFixes(s: string)
    requires NoWhitespace(s)
    ensures DashWhitespace(s) == s
  {
    if s != [] {
      DashWhitespaceFixes(s[1..]);
    }
  }

  /** A string of kept characters has nothing to delete. */
  lemma {:induction false} KeepSlugCharsFixes(s: string)
    requires forall i :: 0 <= i < |s| ==> IsKept(s[i])
    ensures KeepSlugChars(s) == s
  {
    if s != [] {
      KeepSlugCharsFixes(s[1..]);
    }
  }

  /** Deleting characters is an order-preserving filter: it works on each
      part of a string separately. */
  lemma {:induction false} KeepSlugCharsAppend(s: string, t: string)
    ensures KeepSlugChars(s + t) == KeepSlugChars(s) + KeepSlugChars(t)
  {
    if s == [] {
      assert s + t == t;
    } else {
      assert (s + t)[1..] == s[1..] + t;
      KeepSlugCharsAppend(s[1..], t);
    }
  }

  /** One more character is kept exactly when it is in `[A-Za-z0-9_-]`. */
  lemma KeepSlugCharsSnoc(s: string, c: char)
    ensures KeepSlugChars(s + [c]) == KeepSlugChars(s) + (if IsKept(c) then [c] else [])
  {
    KeepSlugCharsAppend(s, [c]);
    assert [c][1..] == [];
  }

  /** Characters before the first whitespace are copied unchanged. */
  lemma {:induction false} DashWhitespacePrefix(a: string, t: string)
    requires NoWhitespace(a)
    ensures DashWhitespace(a + t) == a + DashWhitespace(t)
  {
    if a == [] {
      assert a + t == t;
    } else {
      assert (a + t)[0] == a[0];
      assert (a + t)[1..] == a[1..] + t;
      DashWhitespacePrefix(a[1..], t);
      assert [a[0]] + (a[1..] + DashWhitespace(t)) == a + DashWhitespace(t);
    }
  }

  /** A whole whitespace run, up to the next non-whitespace character, turns
      into a single dash. */
  lemma DashWhitespaceOfRun(ws: string, b: string)
    requires ws != [] && AllWhitespace(ws)
    requires b == [] || !IsWhitespace(b[0])
    ensures DashWhitespace(ws + b) == "-" + DashWhitespace(b)
  {
    assert (ws + b)[0] == ws[0];
    assert (ws + b)[1..] == ws[1..] + b;
    TrimStartSkipsPad(ws[1..], b);
  }

  /** Each maximal whitespace run becomes exactly one dash, and the text on
      either side is kept. */
  lemma DashWhitespaceRun(a: string, ws: string, b: string)
    requires NoWhitespace(a)
    requires ws != [] && AllWhitespace(ws)
    requires b == [] || !IsWhitespace(b[0])
    ensures DashWhitespace(a + ws + b) == a + "-" + DashWhitespace(b)
  {
    calc {
      DashWhitespace(a + ws + b);
      { assert a + ws + b == a + (ws + b); }
      DashWhitespace(a + (ws + b));
      { DashWhitespacePrefix(a, ws + b); }
      a + DashWhitespace(ws + b);
      { DashWhitespaceOfRun(ws, b); }
      a + ("-" + DashWhitespace(b));
      a + "-" + DashWhitespace(b);
    }
  }

  /** Lower-casing a string without upper-case letters changes nothing. */
  lemma LowerFixes(s: string)
    requires forall i :: 0 <= i < |s| ==> !IsUpperAscii(s[i])
    ensures Lower(s) == s
  {
  }

  /** A slug is its own slug. */
  lemma SlugifyIdempotent(name: string)
    ensures Slugify(Slugify(name)) == Slugify(name)
  {
    var slug := Slugify(name);
    LowerFixes(slug);
    DashWhitespaceFixes(slug);
    KeepSlugCharsFixes(slug);
  }

  /** A slug has no whitespace, and every character of it but the dash comes
      from the lower-cased name. */
  lemma SlugifyShape(name: string)
    ensures NoWhitespace(Slugify(name))
    ensures forall c :: c in Slugify(name) && c != '-' ==> c in Lower(name)
  {
    DashWhitespaceChars(Lower(name));
  }

  /** Lower-casing leaves whitespace where it is. */
  lemma LowerWhitespace(s: string)
    ensures NoWhitespace(s) ==> NoWhitespace(Lower(s))
    ensures AllWhitespace(s) ==> AllWhitespace(Lower(s))
    ensures s != [] && !IsWhitespace(s[0]) ==> !IsWhitespace(Lower(s)[0])
  {
  }

  /** Text before the first whitespace is slugged on its own. */
  lemma SlugifyAppend(a: string, b: string)
    requires NoWhitespace(a)
    ensures Slugify(a + b) == Slugify(a) + Slugify(b)
  {
    var la, lb := Lower(a), Lower(b);
    LowerAppend(a, b);
    LowerWhitespace(a);
    DashWhitespacePrefix(la, lb);
    DashWhitespaceFixes(la);
    KeepSlugCharsAppend(la, DashWhitespace(lb));
  }

  /** A whitespace run between two parts of a name becomes one dash in the
      slug; a leading or trailing run becomes a leading or trailing dash. */
  lemma SlugifyJoinsWords(a: string, ws: string, b: string)
    requires NoWhitespace(a)
    requires ws != [] && AllWhitespace(ws)
    requires b == [] || !IsWhitespace(b[0])
    ensures Slugify(a + ws + b) == Slugify(a) + "-" + Slugify(b)
  {
    var la, lws, lb := Lower(a), Lower(ws), Lower(b);
    LowerAppend(a + ws, b);
    LowerAppend(a, ws);
    LowerWhitespace(a);
    LowerWhitespace(ws);
    LowerWhitespace(b);
    DashWhitespaceRun(la, lws, lb);
    DashWhitespaceFixes(la);
    KeepSlugCharsAppend(la + "-", DashWhitespace(lb));
    KeepSlugCharsAppend(la, "-");
    assert KeepSlugChars("-") == "-";
  }

  /** A single character other than whitespace is lower-cased, and kept
      exactly when the result is in `[a-z0-9_-]`. */
  lemma SlugifyChar(c: char)
    requires !IsWhitespace(c)
    ensures Slugify([c]) == if IsSlugChar(LowerChar(c)) then [LowerChar(c)] else []
  {
    assert Lower([c]) == [LowerChar(c)];
    DashWhitespaceFixes([LowerChar(c)]);
    assert [LowerChar(c)][1..] == [];
  }

  // ---------------------------------------------------------------- rows

  const DefaultPrimaryColor: string := "#8B5CF6"
  const DefaultAccentColor: string := "#A78BFA"
  const DefaultPlanId: string := "starter"
  const DefaultStatus: string := "active"
  const NewTenantStatus: string := "trial"
  const DomainSuffix: string := ".beautyflow.app"
  const MappedMaxEmployees: nat := 5
  const MappedMaxAppointmentsPerMonth: nat := 100

  /** The `settings` JSON column. */
  datatype Settings = Settings(
    notificationEmail: Option<string>,
    whatsapp: Option<string>,
    address: Option<string>,
    city: Option<string>,
    state: Option<string>,
    planId: Option<string>,
    status: Option<string>)

  /** The `theme` JSON column. */
  datatype Theme = Theme(primaryColor: Option<string>, accentColor: Option<string>)

  /** A row of the `tenants` table. */
  datatype TenantRow = TenantRow(
    id: string,
    name: string,
    fullName: Option<string>,
    slug: string,
    document: Option<string>,
    settings: Option<Settings>,
    theme: Option<Theme>,
    createdAt: string,
    updatedAt: Option<string>)

  /** The company record the admin panel lists. The subscription end date,
      a year after creation, is not modelled. */
  datatype Company = Company(
    id: string,
    name: string,
    fullName: Option<string>,
    email: string,
    phone: string,
    address: string,
    cpfCnpj: Option<string>,
    logo: Option<string>,
    primaryColor: string,
    secondaryColor: string,
    customDomain: string,
    planId: string,
    status: string,
    subscriptionStartDate: string,
    maxEmployees: nat,
    maxAppointmentsPerMonth: nat,
    currentEmployees: nat,
    currentAppointmentsThisMonth: nat,
    totalRevenue: int,
    monthlyRevenue: int,
    createdAt: string,
    updatedAt: string)

  /** `t.settings?.<field>` for each field the mapper reads. */
  datatype SettingsKey = NotificationEmail | Whatsapp | Address | City | State | PlanId | Status

  function SettingOf(settings: Option<Settings>, key: SettingsKey): Option<string> {
    match settings
    case None => None
    case Some(s) =>
      match key
      case NotificationEmail => s.notificationEmail
      case Whatsapp => s.whatsapp
      case Address => s.address
      case City => s.city
      case State => s.state
      case PlanId => s.planId
      case Status => s.status
  }

  function ThemePrimary(theme: Option<Theme>): Option<string> {
    if theme.Some? then theme.value.primaryColor else None
  }

  function ThemeAccent(theme: Option<Theme>): Option<string> {
    if theme.Some? then theme.value.accentColor else None
  }

  /** The address line: street, city and state, missing parts left empty. */
  function AddressLine(settings: Option<Settings>): string {
    OrElse(SettingOf(settings, Address), "") + " - " + OrElse(SettingOf(settings, City), "")
      + ", " + OrElse(SettingOf(settings, State), "")
  }

  /** The row-to-company mapping of the listing endpoint. */
  function MapRow(row: TenantRow): (c: Company)
    // identity fields pass through untouched
    ensures c.id == row.id && c.name == row.name && c.fullName == row.fullName
    ensures c.cpfCnpj == row.document && c.createdAt == row.createdAt
    ensures c.subscriptionStartDate == row.createdAt && c.logo.None?
    // contact fields fall back to the empty string
    ensures Truthy(SettingOf(row.settings, NotificationEmail)) ==> c.email == SettingOf(row.settings, NotificationEmail).value
    ensures !Truthy(SettingOf(row.settings, NotificationEmail)) ==> c.email == ""
    ensures Truthy(SettingOf(row.settings, Whatsapp)) ==> c.phone == SettingOf(row.settings, Whatsapp).value
    ensures !Truthy(SettingOf(row.settings, Whatsapp)) ==> c.phone == ""
    // colours fall back to the brand defaults
    ensures c.primaryColor != "" && c.secondaryColor != ""
    ensures !Truthy(ThemePrimary(row.theme)) ==> c.primaryColor == DefaultPrimaryColor
    ensures Truthy(ThemePrimary(row.theme)) ==> c.primaryColor == ThemePrimary(row.theme).value
    ensures !Truthy(ThemeAccent(row.theme)) ==> c.secondaryColor == DefaultAccentColor
    ensures Truthy(ThemeAccent(row.theme)) ==> c.secondaryColor == ThemeAccent(row.theme).value
    // plan and status fall back to 'starter' and 'active'
    ensures Truthy(SettingOf(row.settings, PlanId)) ==> c.planId == SettingOf(row.settings, PlanId).value
    ensures !Truthy(SettingOf(row.settings, PlanId)) ==> c.planId == DefaultPlanId
    ensures Truthy(SettingOf(row.settings, Status)) ==> c.status == SettingOf(row.settings, Status).value
    ensures !Truthy(SettingOf(row.settings, Status)) ==> c.status == DefaultStatus
    ensures c.customDomain == row.slug + DomainSuffix
    ensures c.address == AddressLine(row.settings)
    // placeholders for figures the table does not hold
    ensures c.maxEmployees == 5 && c.maxAppointmentsPerMonth == 100
    ensures c.currentEmployees == 0 && c.currentAppointmentsThisMonth == 0
    ensures c.totalRevenue == 0 && c.monthlyRevenue == 0
    // the update time falls back to the creation time
    ensures Truthy(row.updatedAt) ==> c.updatedAt == row.updatedAt.value
    ensures !Truthy(row.updatedAt) ==> c.updatedAt == row.createdAt
  {
    Company(
      row.id,
      row.name,
      row.fullName,
      OrElse(SettingOf(row.settings, NotificationEmail), ""),
      OrElse(SettingOf(row.settings, Whatsapp), ""),
      AddressLine(row.settings),
      row.document,
      None,
      OrElse(ThemePrimary(row.theme), DefaultPrimaryColor),
      OrElse(ThemeAccent(row.theme), DefaultAccentColor),
      row.slug + DomainSuffix,
      OrElse(SettingOf(row.settings, PlanId), DefaultPlanId),
      OrElse(SettingOf(row.settings, Status), DefaultStatus),
      row.createdAt,
      MappedMaxEmployees,
      MappedMaxAppointmentsPerMonth,
      0, 0, 0, 0,
      row.createdAt,
      OrElse(row.updatedAt, row.createdAt))
  }

  // ---------------------------------------------------------------- creation

  /** The JSON body of a creation request. */
  datatype NewCompanyRequest = NewCompanyRequest(
    name: string,
    fullName: Option<string>,
    cpfCnpj: Option<string>,
    email: Option<string>,
    phone: Option<string>,
    address: Option<string>,
    planId: Option<string>)

  /** The record inserted for a new tenant. */
  datatype NewTenant = NewTenant(
    name: string,
    fullName: Option<string>,
    slug: string,
    document: Option<string>,
    settings: Settings,
    theme: Theme,
    locale: string,
    timezone: string)

  /** The tenant record the creation endpoint inserts. */
  function BuildTenant(body: NewCompanyRequest): (t: NewTenant)
    ensures t.name == body.name && t.fullName == body.fullName && t.document == body.cpfCnpj
    ensures t.slug == Slugify(body.name)
    ensures t.settings.notificationEmail == body.email && t.settings.whatsapp == body.phone
    ensures t.settings.address == body.address && t.settings.planId == body.planId
    ensures t.settings.city.None? && t.settings.state.None?
    ensures t.settings.status == Some(NewTenantStatus)
    ensures t.theme == Theme(Some(DefaultPrimaryColor), Some(DefaultAccentColor))
    ensures t.locale == "pt-BR" && t.timezone == "America/Sao_Paulo"
  {
    NewTenant(
      body.name,
      body.fullName,
      Slugify(body.name),
      body.cpfCnpj,
      Settings(body.email, body.phone, body.address, None, None, body.planId, Some(NewTenantStatus)),
      Theme(Some(DefaultPrimaryColor), Some(DefaultAccentColor)),
      "pt-BR",
      "America/Sao_Paulo")
  }

  /** The row the database holds after inserting `t`; the id and the
      timestamps are chosen by the database. */
  function Stored(t: NewTenant, id: string, createdAt: string, updatedAt: Option<string>): (row: TenantRow)
    ensures row.name == t.name && row.slug == t.slug && row.settings == Some(t.settings)
  {
    TenantRow(id, t.name, t.fullName, t.slug, t.document, Some(t.settings), Some(t.theme), createdAt, updatedAt)
  }

  /** The listing entry of a tenant the creation endpoint just made. */
  function Listed(body: NewCompanyRequest, id: string, createdAt: string, updatedAt: Option<string>): Company {
    MapRow(Stored(BuildTenant(body), id, createdAt, updatedAt))
  }

  /** Creating then listing recovers the identity and contact fields; empty
      contact fields come back empty and an empty plan comes back as the
      default. */
  lemma CreateThenListKeepsFields(body: NewCompanyRequest, id: string, createdAt: string, updatedAt: Option<string>)
    ensures var c := Listed(body, id, createdAt, updatedAt);
      && c.id == id && c.name == body.name && c.fullName == body.fullName && c.cpfCnpj == body.cpfCnpj
      && c.email == OrElse(body.email, "") && c.phone == OrElse(body.phone, "")
      && c.planId == OrElse(body.planId, DefaultPlanId)
      && c.status == NewTenantStatus
  {
    var row := Stored(BuildTenant(body), id, createdAt, updatedAt);
    assert SettingOf(row.settings, NotificationEmail) == body.email;
    assert SettingOf(row.settings, Whatsapp) == body.phone;
    assert SettingOf(row.settings, PlanId) == body.planId;
    assert SettingOf(row.settings, Status) == Some(NewTenantStatus);
  }

  /** Creating then listing loses the structure of the address (it comes back
      as `"<address> - , "`), derives the domain from the slug and shows the
      default colours. */
  lemma CreateThenListDerivedFields(body: NewCompanyRequest, id: string, createdAt: string, updatedAt: Option<string>)
    ensures var c := Listed(body, id, createdAt, updatedAt);
      && c.address == OrElse(body.address, "") + " - , "
      && c.customDomain == Slugify(body.name) + DomainSuffix
      && c.primaryColor == DefaultPrimaryColor && c.secondaryColor == DefaultAccentColor
  {
    var t := BuildTenant(body);
    var row := Stored(t, id, createdAt, updatedAt);
    AddressWithoutCity(t.settings);
    assert row.slug == Slugify(body.name);
    assert ThemePrimary(row.theme) == Some(DefaultPrimaryColor);
    assert ThemeAccent(row.theme) == Some(DefaultAccentColor);
  }

  lemma AddressWithoutCity(settings: Settings)
    requires settings.city.None? && settings.state.None?
    ensures AddressLine(Some(settings)) == OrElse(settings.address, "") + " - , "
  {
    assert OrElse(None, "") == "";
    assert OrElse(settings.address, "") + " - " + "" + ", " + "" == OrElse(settings.address, "") + " - , ";
  }

  /** A row without a plan id is listed under `'starter'`, which names no
      subscription tier. */
  lemma DefaultPlanIdIsNoTier(row: TenantRow)
    requires !Truthy(SettingOf(row.settings, PlanId))
    ensures Subscription.ParseTier(MapRow(row).planId).None?
  {
  }

  /** A freshly created tenant is listed with status `'trial'`, which the
      subscription hook does not recognise (it expects `'trialing'`): billing
      data carrying that status is never a trial and never expires, whatever
      its plan and trial end date. */
  lemma NewTenantStatusUnknownToHook(body: NewCompanyRequest, id: string, createdAt: string, updatedAt: Option<string>,
                                     plan: Option<Subscription.PlanTier>, trialEnd: Option<SubscriptionHook.IsoDate>,
                                     today: int)
    ensures var status := Listed(body, id, createdAt, updatedAt).status;
      var s := SubscriptionHook.ResolveSubscription(
        Some(SubscriptionHook.TenantSubscriptionData(plan, Some(status), trialEnd)), today);
      && SubscriptionHook.ParseStatus(status).Unrecognised?
      && !SubscriptionHook.IsTrial(s)
      && !SubscriptionHook.IsExpired(s, today)
  {
    CreateThenListKeepsFields(body, id, createdAt, updatedAt);
  }
}

=== FILE: js_text.dfy ===
/** The small part of JavaScript's string semantics the modelled code relies on:
    the `\s` character class, `\w`, ASCII case mapping, `slice(0, end)`,
    `startsWith`, `includes` and the `x || fallback` idiom on strings. */
module JsText {
  import opened Wrappers

  /** The characters matched by the regular-expression class `\s`; they are
      also exactly the characters `String.prototype.trim` strips
      (ECMAScript WhiteSpace and LineTerminator). */
  predicate IsWhitespace(c: char) {
    || c == ' ' || c == '\t' || c == '\n' || c == '\U{B}' || c == '\U{C}' || c == '\r'
    || c == '\U{A0}' || c == '\U{1680}' || ('\U{2000}' <= c <= '\U{200A}')
    || c == '\U{2028}' || c == '\U{2029}' || c == '\U{202F}' || c == '\U{205F}'
    || c == '\U{3000}' || c == '\U{FEFF}'
  }

  /** The characters matched by the regular-expression class `\w`. */
  predicate IsWordChar(c: char) {
    ('a' <= c <= 'z') || ('A' <= c <= 'Z') || ('0' <= c <= '9') || c == '_'
  }

  predicate IsUpperAscii(c: char) {
    'A' <= c <= 'Z'
  }

  predicate IsLowerAscii(c: char) {
    'a' <= c <= 'z'
  }

  predicate NoWhitespace(s: string) {
    forall i :: 0 <= i < |s| ==> !IsWhitespace(s[i])
  }

  predicate AllWhitespace(s: string) {
    forall i :: 0 <= i < |s| ==> IsWhitespace(s[i])
  }

  /** `toLowerCase` on one character, restricted to ASCII letters. */
  function LowerChar(c: char): (d: char)
    ensures !IsUpperAscii(d)
    ensures IsUpperAscii(c) ==> IsLowerAscii(d) && d as int == c as int + 32
    ensures !IsUpperAscii(c) ==> d == c
  {
    if IsUpperAscii(c) then (c as int + 32) as char else c
  }

  /** `toUpperCase` on one character, restricted to ASCII letters. */
  function UpperChar(c: char): (d: char)
    ensures !IsLowerAscii(d)
    ensures IsLowerAscii(c) ==> IsUpperAscii(d) && d as int + 32 == c as int
    ensures !IsLowerAscii(c) ==> d == c
  {
    if IsLowerAscii(c) then (c as int - 32) as char else c
  }

  /** `s.toLowerCase()` for ASCII letters; every other character is kept. */
  function Lower(s: string): (r: string)
    ensures |r| == |s|
    ensures forall i :: 0 <= i < |s| ==> r[i] == LowerChar(s[i])
  {
    seq(|s|, i requires 0 <= i < |s| => LowerChar(s[i]))
  }

  /** `s.toUpperCase()` for ASCII letters; every other character is kept. */
  function Upper(s: string): (r: string)
    ensures |r| == |s|
    ensures forall i :: 0 <= i < |s| ==> r[i] == UpperChar(s[i])
  {
    seq(|s|, i requires 0 <= i < |s| => UpperChar(s[i]))
  }

  /** The number of characters `s.slice(0, end)` keeps: a negative `end`
      counts back from the end of the string, and the result is clamped to
      `0 ..= |s|`. */
  function SliceEnd(len: nat, end: int): (k: nat)
    ensures k <= len
    ensures 0 <= end <= len ==> k == end
    ensures end > len ==> k == len
    ensures end < 0 ==> k + (-end) == len || (k == 0 && len <= -end)
  {
    if end < 0 then (if len + end < 0 then 0 else len + end)
    else if end > len then len
    else end
  }

  /** `s.slice(0, end)`: always a prefix of `s`. */
  function SliceTo(s: string, end: int): (r: string)
    ensures r <= s
    ensures |r| == SliceEnd(|s|, end)
  {
    s[..SliceEnd(|s|, end)]
  }

  /** `s.startsWith(prefix)`. */
  predicate StartsWith(s: string, prefix: string) {
    prefix <= s
  }

  /** `s.includes(part)`: `part` occurs somewhere in `s` as a contiguous block. */
  predicate Includes(s: string, part: string)
    decreases |s|
  {
    part <= s || (s != [] && Includes(s[1..], part))
  }

  /** JavaScript truthiness of a string that may be missing. */
  predicate Truthy(v: Option<string>) {
    v.Some? && v.value != ""
  }

  /** `v || fallback` for a string that may be missing: the empty string is
      falsy, so it falls back too. */
  function OrElse(v: Option<string>, fallback: string): (r: string)
    ensures Truthy(v) ==> r == v.value
    ensures !Truthy(v) ==> r == fallback
  {
    if Truthy(v) then v.value else fallback
  }

  /** Length of the whitespace run at the front of `s`. */
  function LeadingWhitespace(s: string): (k: nat)
    ensures k <= |s|
    ensures forall i :: 0 <= i < k ==> IsWhitespace(s[i])
    ensures k < |s| ==> !IsWhitespace(s[k])
  {
    if s != [] && IsWhitespace(s[0]) then
      var k := 1 + LeadingWhitespace(s[1..]);
      assert forall i :: 1 <= i < k ==> s[i] == s[1..][i - 1];
      k
    else 0
  }

  /** `s.trimStart()`: the whitespace run at the front removed. */
  function TrimStart(s: string): (r: string)
    ensures |r| <= |s| && r == s[|s| - |r|..]
    ensures AllWhitespace(s[..|s| - |r|])
    ensures r == [] || !IsWhitespace(r[0])
    ensures s != [] && IsWhitespace(s[0]) ==> |r| < |s|
    ensures forall c :: c in r ==> c in s
  {
    s[LeadingWhitespace(s)..]
  }

  /** `trimStart` drops one leading whitespace character at a time and
      stops at the first other character. */
  lemma TrimStartStep(s: string)
    ensures s != [] && IsWhitespace(s[0]) ==> TrimStart(s) == TrimStart(s[1..])
    ensures s == [] || !IsWhitespace(s[0]) ==> TrimStart(s) == s
  {
  }

  /** `s.trimEnd()`: the whitespace run at the back removed. */
  function TrimEnd(s: string): (r: string)
    ensures |r| <= |s| && r == s[..|r|]
    ensures AllWhitespace(s[|r|..])
    ensures r == [] || !IsWhitespace(r[|r| - 1])
  {
    if s != [] && IsWhitespace(s[|s| - 1]) then TrimEnd(s[..|s| - 1]) else s
  }

  /** `s.trim()`. */
  function Trim(s: string): string {
    TrimEnd(TrimStart(s))
  }

  /** A block that holds a character `s` lacks does not occur in `s`. */
  lemma {:induction false} MissingCharExcludes(s: string, part: string, c: char)
    requires c in part && c !in s
    ensures !Includes(s, part)
    decreases |s|
  {
    if s != [] {
      assert forall d :: d in s[1..] ==> d in s;
      MissingCharExcludes(s[1..], part, c);
    }
  }

  /** Leading whitespace is all `trimStart` looks at. */
  lemma {:induction false} TrimStartSkipsPad(pad: string, v: string)
    requires AllWhitespace(pad)
    ensures TrimStart(pad + v) == TrimStart(v)
  {
    if pad == [] {
      assert pad + v == v;
    } else {
      assert (pad + v)[1..] == pad[1..] + v;
      TrimStartStep(pad + v);
      TrimStartSkipsPad(pad[1..], v);
    }
  }

  /** Lower-casing works character by character, so it distributes over
      concatenation. */
  lemma LowerAppend(x: string, y: string)
    ensures Lower(x + y) == Lower(x) + Lower(y)
  {
    assert forall i :: 0 <= i < |x + y| ==> Lower(x + y)[i] == (Lower(x) + Lower(y))[i];
  }
}

=== FILE: sidebar.dfy ===
/** The back-office menu: its sections and items built from the tenant slug,
    and for each item whether the subscription locks it, where its link goes
    and whether it is the active entry. Rendering is not modelled. */
module Sidebar {
  import opened Wrappers
  import opened JsText
  import opened Subscription
  import opened SubscriptionHook
  import TenantContext

  /** One menu entry; `permission` is the feature key that gates it, if any. */
  datatype MenuItem = MenuItem(caption: string, href: string, permission: Option<FeatureKey>)

  datatype MenuSection = MenuSection(title: string, items: seq<MenuItem>)

  /** One entry of the fixed layout: its caption, the path segment under the
      tenant, and the gating feature key. */
  datatype Entry = Entry(caption: string, segment: string, permission: Option<FeatureKey>)

  datatype SectionLayout = SectionLayout(title: string, entries: seq<Entry>)

  /** The fixed menu layout, section by section. */
  const Layout: seq<SectionLayout> := [
    SectionLayout("Principal", [
      Entry("Visão Geral", "dashboard", None),
      Entry("Agenda", "agenda", None)]),
    SectionLayout("Gestão", [
      Entry("Clientes", "clientes", None),
      Entry("Serviços", "servicos", None),
      Entry("Galeria", "galeria", Some(MarketingGallery)),
      Entry("Funcionários", "funcionarios", None),
      Entry("Financeiro", "financeiro", Some(FinancialModule)),
      Entry("Estoque & PDV", "estoque", Some(InventoryModule)),
      Entry("CRM & Marketing", "crm", Some(MarketingGallery)),
      Entry("Social IA", "social", Some(MarketingGallery)),
      Entry("Relatórios", "relatorios", Some(FinancialModule)),
      Entry("Clube Fidelidade", "fidelidade", Some(FidelityClub)),
      Entry("Vista Profissional", "profissional", None)]),
    SectionLayout("Configurações", [
      Entry("Perfil", "perfil", None),
      Entry("Assinatura", "assinatura", None),
      Entry("Configurações", "configuracoes", None),
      Entry("Integrações", "integracoes", Some(MultiUnit))])
  ]

  /** The path prefix every menu link of a tenant shares. */
  function TenantRoot(slug: string): string {
    "/" + slug + "/"
  }

  /** `href` is one path segment below the tenant's root. */
  predicate UnderTenant(href: string, slug: string) {
    && StartsWith(href, TenantRoot(slug))
    && |href| > |TenantRoot(slug)|
    && '/' !in href[|TenantRoot(slug)|..]
  }

  /** The slug of the current tenant, or `"demo"` when there is none (or it
      is empty). */
  function SlugFor(tenant: Option<TenantContext.Tenant>): (slug: string)
    ensures tenant.Some? && tenant.value.slug != "" ==> slug == tenant.value.slug
    ensures tenant.None? || tenant.value.slug == "" ==> slug == "demo"
  {
    OrElse(if tenant.Some? then Some(tenant.value.slug) else None, "demo")
  }

  function ItemFor(slug: string, e: Entry): MenuItem {
    MenuItem(e.caption, TenantRoot(slug) + e.segment, e.permission)
  }

  /** `menuSections`: the layout instantiated for one tenant slug. */
  function MenuSections(slug: string): (ms: seq<MenuSection>)
    ensures |ms| == |Layout|
    ensures forall s :: 0 <= s < |ms| ==>
      ms[s].title == Layout[s].title && |ms[s].items| == |Layout[s].entries|
    ensures forall s, i :: 0 <= s < |ms| && 0 <= i < |ms[s].items| ==>
      && ms[s].items[i].caption == Layout[s].entries[i].caption
      && ms[s].items[i].permission == Layout[s].entries[i].permission
      && UnderTenant(ms[s].items[i].href, slug)
      && ms[s].items[i].href[|TenantRoot(slug)|..] == Layout[s].entries[i].segment
  {
    SegmentsAreSingle();
    seq(|Layout|, s requires 0 <= s < |Layout| =>
      MenuSection(Layout[s].title,
        seq(|Layout[s].entries|, i requires 0 <= i < |Layout[s].entries| =>
          ItemFor(slug, Layout[s].entries[i]))))
  }

  /** Every layout segment is a non-empty path component. */
  lemma SegmentsAreSingle()
    ensures forall s, i :: 0 <= s < |Layout| && 0 <= i < |Layout[s].entries| ==>
      Layout[s].entries[i].segment != [] && '/' !in Layout[s].entries[i].segment
  {
    forall s, i | 0 <= s < |Layout| && 0 <= i < |Layout[s].entries|
      ensures Layout[s].entries[i].segment != [] && '/' !in Layout[s].entries[i].segment
    {
      SectionSegmentsAreSingle(Layout[s].entries, i);
    }
  }

  lemma SectionSegmentsAreSingle(entries: seq<Entry>, i: nat)
    requires entries == Layout[0].entries || entries == Layout[1].entries || entries == Layout[2].entries
    requires i < |entries|
    ensures entries[i].segment != [] && '/' !in entries[i].segment
  {
    if entries == Layout[0].entries {
      PrincipalSegments(i);
    } else if entries == Layout[1].entries {
      if i < 6 { ManagementSegmentsLow(i); } else { ManagementSegmentsHigh(i); }
    } else {
      SettingsSegments(i);
    }
  }

  // Per-section facts about the fixed layout. The middle section is split in
  // two so that each proof unfolds only a few literal entries.

  lemma PrincipalSegments(i: nat)
    requires i < |Layout[0].entries|
    ensures Layout[0].entries[i].segment != [] && '/' !in Layout[0].entries[i].segment
  {
  }

  lemma ManagementSegmentsLow(i: nat)
    requires i < 6
    ensures Layout[1].entries[i].segment != [] && '/' !in Layout[1].entries[i].segment
  {
  }

  lemma ManagementSegmentsHigh(i: nat)
    requires 6 <= i < |Layout[1].entries|
    ensures Layout[1].entries[i].segment != [] && '/' !in Layout[1].entries[i].segment
  {
  }

  lemma SettingsSegments(i: nat)
    requires i < |Layout[2].entries|
    ensures Layout[2].entries[i].segment != [] && '/' !in Layout[2].entries[i].segment
  {
  }

  /** All items of all sections, in menu order. */
  function Flatten(sections: seq<MenuSection>): (items: seq<MenuItem>)
    ensures forall s, i :: 0 <= s < |sections| && 0 <= i < |sections[s].items| ==>
      sections[s].items[i] in items
    ensures forall it :: it in items ==> exists s :: 0 <= s < |sections| && it in sections[s].items
  {
    if sections == [] then []
    else sections[0].items + Flatten(sections[1..])
  }

  function AllItems(slug: string): seq<MenuItem> {
    Flatten(MenuSections(slug))
  }

  /** An item is locked exactly when it names a permission that is denied. */
  function IsLocked(item: MenuItem, sub: SubscriptionState, today: int): (locked: bool)
    ensures item.permission.None? ==> !locked
    ensures item.permission.Some? ==> (locked <==> !CheckPermission(sub, today, item.permission.value))
  {
    match item.permission
    case None => false
    case Some(k) => !CheckPermission(sub, today, k)
  }

  /** A locked item links nowhere. */
  function LinkTarget(item: MenuItem, locked: bool): (target: string)
    ensures locked ==> target == "#"
    ensures !locked ==> target == item.href
  {
    if locked then "#" else item.href
  }

  /** `pathname.startsWith(item.href)`: the path begins with the item's link. */
  function IsActive(pathname: string, item: MenuItem): (active: bool)
    ensures active <==> |item.href| <= |pathname| && pathname[..|item.href|] == item.href
  {
    StartsWith(pathname, item.href)
  }

  /** What the menu shows for one item. */
  datatype ItemView = ItemView(caption: string, target: string, locked: bool, active: bool)

  /** What one item shows under a given subscription and path. */
  function ViewOf(item: MenuItem, sub: SubscriptionState, today: int, pathname: string): (v: ItemView)
    ensures v.caption == item.caption
    ensures v.locked <==> item.permission.Some? && !CheckPermission(sub, today, item.permission.value)
    ensures v.locked ==> v.target == "#"
    ensures !v.locked ==> v.target == item.href
    ensures v.active <==> StartsWith(pathname, item.href)
  {
    var locked := IsLocked(item, sub, today);
    ItemView(item.caption, LinkTarget(item, locked), locked, IsActive(pathname, item))
  }

  /** The subscription the sidebar resolves for the current tenant. */
  function SubscriptionFor(tenant: Option<TenantContext.Tenant>, today: int): SubscriptionState {
    ResolveSubscription(if tenant.Some? then Some(tenant.value.billing) else None, today)
  }

  /** The whole menu for the current tenant, the clock and the current path:
      the subscription is resolved from the tenant's billing data, as the
      component does. */
  function MenuView(tenant: Option<TenantContext.Tenant>, today: int, pathname: string): (views: seq<ItemView>)
    ensures |views| == |AllItems(SlugFor(tenant))|
    ensures forall i :: 0 <= i < |views| ==>
      views[i] == ViewOf(AllItems(SlugFor(tenant))[i], SubscriptionFor(tenant, today), today, pathname)
  {
    var items := AllItems(SlugFor(tenant));
    var sub := SubscriptionFor(tenant, today);
    seq(|items|, i requires 0 <= i < |items| => ViewOf(items[i], sub, today, pathname))
  }

  /** The number of items that carry a permission key. */
  function GatedCount(items: seq<MenuItem>): (n: nat)
    ensures n <= |items|
  {
    if items == [] then 0
    else (if items[0].permission.Some? then 1 else 0) + GatedCount(items[1..])
  }

  /** The number of layout entries that carry a permission key. */
  function GatedEntries(entries: seq<Entry>): nat {
    if entries == [] then 0
    else (if entries[0].permission.Some? then 1 else 0) + GatedEntries(entries[1..])
  }

  lemma {:induction false} GatedCountAppend(a: seq<MenuItem>, b: seq<MenuItem>)
    ensures GatedCount(a + b) == GatedCount(a) + GatedCount(b)
  {
    if a != [] {
      assert (a + b)[1..] == a[1..] + b;
      GatedCountAppend(a[1..], b);
    } else {
      assert a + b == b;
    }
  }

  /** Items that carry the same keys as the entries count the same. */
  lemma {:induction false} GatedCountMatchesEntries(items: seq<MenuItem>, entries: seq<Entry>)
    requires |items| == |entries|
    requires forall i :: 0 <= i < |items| ==> items[i].permission == entries[i].permission
    ensures GatedCount(items) == GatedEntries(entries)
  {
    if items != [] {
      GatedCountMatchesEntries(items[1..], entries[1..]);
    }
  }

  /** Every gating key of the layout is a boolean module. */
  lemma LayoutGatesOnModules()
    ensures forall s, i ::
      0 <= s < |Layout| && 0 <= i < |Layout[s].entries| && Layout[s].entries[i].permission.Some? ==>
        IsModule(Layout[s].entries[i].permission.value)
  {
  }

  /** Every gating key of the menu is a boolean module. */
  lemma GatedItemsAreModules(slug: string)
    ensures forall it :: it in AllItems(slug) && it.permission.Some? ==> IsModule(it.permission.value)
  {
    var ms := MenuSections(slug);
    LayoutGatesOnModules();
    forall it | it in AllItems(slug) && it.permission.Some?
      ensures IsModule(it.permission.value)
    {
      var s :| 0 <= s < |ms| && it in ms[s].items;
      var i :| 0 <= i < |ms[s].items| && ms[s].items[i] == it;
    }
  }

  /** Eight menu items are gated by a permission key. */
  lemma EightGatedItems(slug: string)
    ensures GatedCount(AllItems(slug)) == 8
  {
    var ms := MenuSections(slug);
    var a, b, c := ms[0].items, ms[1].items, ms[2].items;
    AllItemsUnrolled(slug);
    GatedCountAppend(a + b, c);
    GatedCountAppend(a, b);
    SectionGatedCount(slug, 0);
    SectionGatedCount(slug, 1);
    SectionGatedCount(slug, 2);
    PrincipalUngated();
    ManagementGated();
    SettingsGated();
  }

  lemma PrincipalUngated()
    ensures GatedEntries(Layout[0].entries) == 0
  {
  }

  lemma ManagementGated()
    ensures GatedEntries(Layout[1].entries) == 7
  {
  }

  lemma SettingsGated()
    ensures GatedEntries(Layout[2].entries) == 1
  {
  }

  lemma SectionGatedCount(slug: string, s: nat)
    requires s < |Layout|
    ensures GatedCount(MenuSections(slug)[s].items) == GatedEntries(Layout[s].entries)
  {
    GatedCountMatchesEntries(MenuSections(slug)[s].items, Layout[s].entries);
  }

  /** The flattened menu is the three sections one after the other. */
  lemma AllItemsUnrolled(slug: string)
    ensures AllItems(slug) == MenuSections(slug)[0].items + MenuSections(slug)[1].items
                              + MenuSections(slug)[2].items
  {
    var ms := MenuSections(slug);
    assert ms[1..][1..][1..] == [];
    assert Flatten(ms[1..][1..]) == ms[2].items + Flatten(ms[1..][1..][1..]);
    assert Flatten(ms[1..]) == ms[1].items + Flatten(ms[1..][1..]);
  }

  /** Once the subscription has expired, every gated item is locked. */
  lemma ExpiredLocksEveryGatedItem(slug: string, sub: SubscriptionState, today: int)
    requires IsExpired(sub, today)
    ensures forall it :: it in AllItems(slug) ==> (IsLocked(it, sub, today) <==> it.permission.Some?)
  {
  }

  /** On a running pro plan exactly the gated items are locked. */
  lemma ProLocksExactlyGated(slug: string, sub: SubscriptionState, today: int)
    requires sub.planId == Pro && !IsExpired(sub, today)
    ensures forall it :: it in AllItems(slug) ==> (IsLocked(it, sub, today) <==> it.permission.Some?)
  {
    GatedItemsAreModules(slug);
    ProIsBasic();
  }

  /** On a running trial or elite plan nothing is locked. */
  lemma FullAccessLocksNothing(slug: string, sub: SubscriptionState, today: int)
    requires sub.planId == Trial || sub.planId == Elite
    requires !IsExpired(sub, today)
    ensures forall it :: it in AllItems(slug) ==> !IsLocked(it, sub, today)
  {
    GatedItemsAreModules(slug);
    TrialAndEliteGrantEverything();
  }

  /** The number of locked views. */
  function LockedCount(views: seq<ItemView>): (n: nat)
    ensures n <= |views|
  {
    if views == [] then 0
    else (if views[0].locked then 1 else 0) + LockedCount(views[1..])
  }

  /** Views locked exactly where the items are gated count as many locks as
      there are gated items. */
  lemma {:induction false} LockedCountMatchesGated(views: seq<ItemView>, items: seq<MenuItem>)
    requires |views| == |items|
    requires forall i :: 0 <= i < |views| ==> (views[i].locked <==> items[i].permission.Some?)
    ensures LockedCount(views) == GatedCount(items)
  {
    if views != [] {
      LockedCountMatchesGated(views[1..], items[1..]);
    }
  }

  /** When the subscription locks exactly the gated items, the tenant's menu
      shows eight locks. */
  lemma EightLocksWhenGatesClose(tenant: Option<TenantContext.Tenant>, today: int, pathname: string)
    requires forall it :: it in AllItems(SlugFor(tenant)) ==>
      (IsLocked(it, SubscriptionFor(tenant, today), today) <==> it.permission.Some?)
    ensures LockedCount(MenuView(tenant, today, pathname)) == 8
  {
    var items := AllItems(SlugFor(tenant));
    var views := MenuView(tenant, today, pathname);
    forall i | 0 <= i < |views| ensures views[i].locked <==> items[i].permission.Some? {
      assert items[i] in items;
    }
    LockedCountMatchesGated(views, items);
    EightGatedItems(SlugFor(tenant));
  }

  /** A tenant on a running pro plan sees exactly eight locked items, each
      linking to `"#"`, and every other item linking to its page. */
  lemma ProTenantMenu(tenant: TenantContext.Tenant, today: int, pathname: string)
    requires tenant.billing.planId == Some(Pro)
    requires !IsExpired(SubscriptionFor(Some(tenant), today), today)
    ensures var views := MenuView(Some(tenant), today, pathname);
      && LockedCount(views) == 8
      && forall i :: 0 <= i < |views| ==>
           (views[i].locked ==> views[i].target == "#")
           && (!views[i].locked ==> views[i].target == AllItems(SlugFor(Some(tenant)))[i].href)
  {
    ProLocksExactlyGated(SlugFor(Some(tenant)), SubscriptionFor(Some(tenant), today), today);
    EightLocksWhenGatesClose(Some(tenant), today, pathname);
  }

  /** A tenant without billing data (or no tenant at all) is on the default
      trial: no item is locked and every item links to its page. */
  lemma DefaultTenantMenu(tenant: Option<TenantContext.Tenant>, today: int, pathname: string)
    requires tenant.None? || tenant.value.billing == TenantSubscriptionData(None, None, None)
    ensures var views := MenuView(tenant, today, pathname);
      && LockedCount(views) == 0
      && forall i :: 0 <= i < |views| ==>
           !views[i].locked && views[i].target == AllItems(SlugFor(tenant))[i].href
  {
    var slug := SlugFor(tenant);
    var sub := SubscriptionFor(tenant, today);
    assert sub == ResolveSubscription(None, today);
    DefaultIsFullTrial(today, MaxEmployees, 0);
    FullAccessLocksNothing(slug, sub, today);
    UnlockedItemsLinkThrough(AllItems(slug), sub, today, pathname, MenuView(tenant, today, pathname));
  }

  /** Views of items none of which is locked are all unlocked and link to
      their pages. */
  lemma UnlockedItemsLinkThrough(items: seq<MenuItem>, sub: SubscriptionState, today: int,
                                 pathname: string, views: seq<ItemView>)
    requires |views| == |items|
    requires forall i :: 0 <= i < |views| ==> views[i] == ViewOf(items[i], sub, today, pathname)
    requires forall it :: it in items ==> !IsLocked(it, sub, today)
    ensures LockedCount(views) == 0
    ensures forall i :: 0 <= i < |views| ==> !views[i].locked && views[i].target == items[i].href
  {
    forall i | 0 <= i < |views| ensures !views[i].locked {
      assert items[i] in items;
    }
    NoLocks(views);
  }

  lemma {:induction false} NoLocks(views: seq<ItemView>)
    requires forall i :: 0 <= i < |views| ==> !views[i].locked
    ensures LockedCount(views) == 0
  {
    if views != [] {
      NoLocks(views[1..]);
    }
  }

  /** Once the subscription has expired, exactly the eight gated items are
      locked. */
  lemma ExpiredTenantMenu(tenant: Option<TenantContext.Tenant>, today: int, pathname: string)
    requires IsExpired(SubscriptionFor(tenant, today), today)
    ensures LockedCount(MenuView(tenant, today, pathname)) == 8
  {
    ExpiredLocksEveryGatedItem(SlugFor(tenant), SubscriptionFor(tenant, today), today);
    EightLocksWhenGatesClose(tenant, today, pathname);
  }

  /** Every menu item links one segment below the tenant's root. */
  lemma AllItemsUnderTenant(slug: string)
    ensures forall it :: it in AllItems(slug) ==> UnderTenant(it.href, slug)
  {
    var ms := MenuSections(slug);
    forall it | it in AllItems(slug) ensures UnderTenant(it.href, slug) {
      var s :| 0 <= s < |ms| && it in ms[s].items;
      var i :| 0 <= i < |ms[s].items| && ms[s].items[i] == it;
    }
  }

  /** On a path outside the tenant's root no menu item is active; on a path
      under an item's own link that item is. */
  lemma ActiveFollowsPath(tenant: Option<TenantContext.Tenant>, today: int, pathname: string)
    ensures var views := MenuView(tenant, today, pathname);
      var items := AllItems(SlugFor(tenant));
      && (!StartsWith(pathname, TenantRoot(SlugFor(tenant))) ==> forall i :: 0 <= i < |views| ==> !views[i].active)
      && forall i :: 0 <= i < |views| && StartsWith(pathname, items[i].href) ==> views[i].active
  {
    var slug := SlugFor(tenant);
    var items := AllItems(slug);
    var views := MenuView(tenant, today, pathname);
    AllItemsUnderTenant(slug);
    forall i | 0 <= i < |views| && views[i].active
      ensures StartsWith(pathname, TenantRoot(slug))
    {
      assert items[i] in items;
      var root := TenantRoot(slug);
      assert root <= items[i].href && items[i].href <= pathname;
    }
  }
}

=== FILE: subscription.dfy ===
/** The fixed plan table: four tiers, each with a price and a feature record,
    plus the display label of every feature key. Prices are held in integer
    cents (49.90 becomes 4990). */
module Subscription {
  import opened Wrappers

  datatype PlanTier = Trial | Pro | Premium | Elite

  /** A numeric limit, or the literal `'unlimited'`. */
  datatype Limit = Unlimited | UpTo(count: nat)

  datatype SupportPriority = Standard | Priority | Vip

  /** The keys of a plan's feature record. */
  datatype FeatureKey =
    | MaxEmployees
    | FinancialModule
    | InventoryModule
    | MarketingGallery
    | FidelityClub
    | MultiUnit
    | CustomDomain
    | SupportPriorityLevel

  datatype Features = Features(
    maxEmployees: Limit,
    financialModule: bool,
    inventoryModule: bool,
    marketingGallery: bool,
    fidelityClub: bool,
    multiUnit: bool,
    customDomain: bool,
    supportPriority: SupportPriority)

  /** The value stored under one feature key, tagged with its runtime type. */
  datatype FeatureValue = Flag(enabled: bool) | Cap(limit: Limit) | Level(priority: SupportPriority)

  datatype SubscriptionPlan = SubscriptionPlan(
    id: PlanTier,
    name: string,
    priceCents: nat,
    description: string,
    features: Features)

  /** The record key (and the `id` string) of each tier. */
  function TierKey(t: PlanTier): string {
    match t
    case Trial => "trial"
    case Pro => "pro"
    case Premium => "premium"
    case Elite => "elite"
  }

  /** Reads a plan id string back into a tier; `None` for any string that is
      not one of the four keys. */
  function ParseTier(s: string): (r: Option<PlanTier>)
    ensures r.Some? ==> TierKey(r.value) == s
    ensures r.None? ==> forall t: PlanTier :: TierKey(t) != s
  {
    if s == "trial" then Some(Trial)
    else if s == "pro" then Some(Pro)
    else if s == "premium" then Some(Premium)
    else if s == "elite" then Some(Elite)
    else None
  }

  /** The position of a tier in the upgrade ladder. */
  function Rank(t: PlanTier): nat {
    match t
    case Trial => 0
    case Pro => 1
    case Premium => 2
    case Elite => 3
  }

  /** The boolean-valued features ("modules"); the other two keys hold a
      limit and a support level. */
  predicate IsModule(k: FeatureKey) {
    !(k.MaxEmployees? || k.SupportPriorityLevel?)
  }

  /** `plan.features[key]`. */
  function FeatureOf(f: Features, k: FeatureKey): (v: FeatureValue)
    ensures IsModule(k) <==> v.Flag?
    ensures k.MaxEmployees? <==> v.Cap?
    ensures k.SupportPriorityLevel? <==> v.Level?
  {
    match k
    case MaxEmployees => Cap(f.maxEmployees)
    case FinancialModule => Flag(f.financialModule)
    case InventoryModule => Flag(f.inventoryModule)
    case MarketingGallery => Flag(f.marketingGallery)
    case FidelityClub => Flag(f.fidelityClub)
    case MultiUnit => Flag(f.multiUnit)
    case CustomDomain => Flag(f.customDomain)
    case SupportPriorityLevel => Level(f.supportPriority)
  }

  /** Every module enabled, no employee limit and VIP support. */
  predicate FullAccess(f: Features) {
    && (forall k :: IsModule(k) ==> FeatureOf(f, k) == Flag(true))
    && f.maxEmployees == Unlimited
    && f.supportPriority == Vip
  }

  /** `SUBSCRIPTION_PLANS[t]`. */
  function Plan(t: PlanTier): (p: SubscriptionPlan)
    ensures p.id == t
    ensures p.priceCents == 0 <==> t == Trial
  {
    match t
    case Trial =>
      SubscriptionPlan(Trial, "Período de Teste", 0,
        "Acesso total a todas as funcionalidades por 15 dias.",
        Features(Unlimited, true, true, true, true, true, true, Vip))
    case Pro =>
      SubscriptionPlan(Pro, "Plano PRO", 4990,
        "Essencial para autônomos e pequenos espaços.",
        Features(UpTo(2), false, false, false, false, false, false, Standard))
    case Premium =>
      SubscriptionPlan(Premium, "Plano Premium", 9990,
        "Para salões em crescimento com gestão completa.",
        Features(UpTo(5), true, true, true, false, false, false, Priority))
    case Elite =>
      SubscriptionPlan(Elite, "Plano Elite / Black", 19990,
        "Poder total para grandes salões e redes.",
        Features(Unlimited, true, true, true, true, true, true, Vip))
  }

  /** The tier grants module `k`. */
  predicate Grants(t: PlanTier, k: FeatureKey) {
    FeatureOf(Plan(t).features, k) == Flag(true)
  }

  /** `FEATURE_LABELS[k]`. */
  function FeatureLabel(k: FeatureKey): (text: string)
    ensures text != ""
  {
    match k
    case MaxEmployees => "Limite de Profissionais"
    case FinancialModule => "Gestão Financeira e Comissões"
    case InventoryModule => "Controle de Estoque"
    case MarketingGallery => "Galeria e Marketing Personalizado"
    case FidelityClub => "Clube de Fidelidade"
    case MultiUnit => "Gestão Multi-Unidades"
    case CustomDomain => "Domínio Personalizado"
    case SupportPriorityLevel => "Nível de Suporte"
  }

  /** Every plan is stored under its own id, and its key reads back to it. */
  lemma PlanIdMatchesKey(t: PlanTier)
    ensures Plan(t).id == t
    ensures ParseTier(TierKey(t)) == Some(t)
  {
  }

  /** The trial and elite tiers unlock everything. */
  lemma TrialAndEliteGrantEverything()
    ensures FullAccess(Plan(Trial).features)
    ensures FullAccess(Plan(Elite).features)
  {
  }

  /** The pro tier grants no module, two employees and standard support. */
  lemma ProIsBasic()
    ensures forall k :: IsModule(k) ==> !Grants(Pro, k)
    ensures Plan(Pro).features.maxEmployees == UpTo(2)
    ensures Plan(Pro).features.supportPriority == Standard
  {
  }

  /** The premium tier: finance, stock and marketing, but no loyalty club,
      multi-unit or custom domain, and five employees. */
  lemma PremiumShape()
    ensures Grants(Premium, FinancialModule) && Grants(Premium, InventoryModule)
    ensures Grants(Premium, MarketingGallery)
    ensures !Grants(Premium, FidelityClub) && !Grants(Premium, MultiUnit)
    ensures !Grants(Premium, CustomDomain)
    ensures Plan(Premium).features.maxEmployees == UpTo(5)
    ensures Plan(Premium).features.supportPriority == Priority
  {
  }

  /** Modules only grow along the paid ladder pro, premium, elite. */
  lemma ModulesNested(k: FeatureKey)
    ensures Grants(Pro, k) ==> Grants(Premium, k)
    ensures Grants(Premium, k) ==> Grants(Elite, k)
  {
  }

  /** A higher tier always costs strictly more. */
  lemma PricesStrictlyIncrease(t: PlanTier, u: PlanTier)
    requires Rank(t) < Rank(u)
    ensures Plan(t).priceCents < Plan(u).priceCents
  {
  }

  /** The label table covers every key, and no two keys share a label. */
  lemma FeatureLabelsDistinct(k: FeatureKey, j: FeatureKey)
    requires k != j
    ensures FeatureLabel(k) != FeatureLabel(j)
  {
  }
}

=== FILE: tenant_context.dfy ===
/** The tenant selector: which tenant the back-office is looking at, and the
    tenant id remembered in browser storage. The tenant list, the logged-in
    user and the super-admin flag are parameters of each transition. */
module TenantContext {
  import opened Wrappers
  import SubscriptionHook
  import opened JsText

  /** The fields of a tenant record the modelled code reads. */
  datatype Tenant = Tenant(
    id: string,
    slug: string,
    billing: SubscriptionHook.TenantSubscriptionData)

  datatype User = User(id: string, companyId: Option<string>)

  /** The selector state: the current tenant (absent only when the tenant
      list was empty), the stored tenant id and whether the sync step has
      completed. */
  datatype TenantState = TenantState(
    current: Option<Tenant>,
    storedTenantId: Option<string>,
    hydrated: bool)

  /** `tenants.find(t => t.id === id)`: the first tenant with that id. */
  function FindTenant(tenants: seq<Tenant>, id: string): (r: Option<Tenant>)
    ensures r.Some? ==> r.value in tenants && r.value.id == id
    ensures r.None? <==> forall i :: 0 <= i < |tenants| ==> tenants[i].id != id
    ensures r.Some? ==> exists i :: 0 <= i < |tenants| && tenants[i] == r.value
                                    && forall j :: 0 <= j < i ==> tenants[j].id != id
  {
    if tenants == [] then None
    else if tenants[0].id == id then Some(tenants[0])
    else
      var r := FindTenant(tenants[1..], id);
      assert r.Some? ==> exists i :: 0 <= i < |tenants| && tenants[i] == r.value
                                     && forall j :: 0 <= j < i ==> tenants[j].id != id by {
        if r.Some? {
          var i :| 0 <= i < |tenants[1..]| && tenants[1..][i] == r.value
                   && forall j :: 0 <= j < i ==> tenants[1..][j].id != id;
          assert tenants[i + 1] == r.value;
          assert forall j :: 0 <= j < i + 1 ==> tenants[j].id != id by {
            forall j | 0 <= j < i + 1 ensures tenants[j].id != id {
              if j > 0 { assert tenants[j] == tenants[1..][j - 1]; }
            }
          }
        }
      }
      assert r.None? ==> forall i :: 0 <= i < |tenants| ==> tenants[i].id != id by {
        if r.None? {
          forall i | 0 <= i < |tenants| ensures tenants[i].id != id {
            if i > 0 { assert tenants[i] == tenants[1..][i - 1]; }
          }
        }
      }
      r
  }

  /** The state before the sync step: the first tenant of the list, and
      whatever id storage already holds. */
  function Init(tenants: seq<Tenant>, stored: Option<string>): (st: TenantState)
    ensures |tenants| > 0 ==> st.current == Some(tenants[0])
    ensures tenants == [] ==> st.current.None?
    ensures st.storedTenantId == stored && !st.hydrated
  {
    TenantState(if tenants == [] then None else Some(tenants[0]), stored, false)
  }

  /** The effect that runs when the user or the super-admin flag changes. */
  function Sync(st: TenantState, tenants: seq<Tenant>, user: Option<User>, isSuperAdmin: bool): (st': TenantState)
    ensures user.None? ==> st' == st
    // A tenant user is pinned to their own company when it exists.
    ensures user.Some? && !isSuperAdmin && Truthy(user.value.companyId) ==>
      match FindTenant(tenants, user.value.companyId.value)
      case Some(t) => st'.current == Some(t) && st'.storedTenantId == Some(t.id) && t in tenants
      case None => st'.current == st.current && st'.storedTenantId == st.storedTenantId
    // Otherwise the stored id is restored when it names a tenant.
    ensures user.Some? && (isSuperAdmin || !Truthy(user.value.companyId)) ==>
      && st'.storedTenantId == st.storedTenantId
      && (if Truthy(st.storedTenantId) && FindTenant(tenants, st.storedTenantId.value).Some?
          then st'.current == FindTenant(tenants, st.storedTenantId.value)
               && st'.current.value.id == st.storedTenantId.value && st'.current.value in tenants
          else st'.current == st.current)
    ensures user.Some? ==> st'.hydrated
  {
    if user.None? then st
    else
      var u := user.value;
      if !isSuperAdmin && Truthy(u.companyId) then
        match FindTenant(tenants, u.companyId.value)
        case Some(t) => TenantState(Some(t), Some(t.id), true)
        case None => st.(hydrated := true)
      else
        if Truthy(st.storedTenantId) then
          match FindTenant(tenants, st.storedTenantId.value)
          case Some(t) => st.(current := Some(t), hydrated := true)
          case None => st.(hydrated := true)
        else st.(hydrated := true)
  }

  /** Switching tenant: only a super admin may, and the choice is stored. */
  function SetCurrentTenant(st: TenantState, tenant: Tenant, isSuperAdmin: bool): (st': TenantState)
    ensures !isSuperAdmin ==> st' == st
    ensures isSuperAdmin ==> st'.current == Some(tenant) && st'.storedTenantId == Some(tenant.id)
    ensures st'.hydrated == st.hydrated
  {
    if isSuperAdmin then st.(current := Some(tenant), storedTenantId := Some(tenant.id)) else st
  }

  /** The stored id, when there is one, names the current tenant. */
  predicate Coherent(st: TenantState) {
    st.storedTenantId.Some? ==> st.current.Some? && st.current.value.id == st.storedTenantId.value
  }

  /** Both transitions keep the stored id in step with the current tenant. */
  lemma CoherencePreserved(st: TenantState, tenants: seq<Tenant>, user: Option<User>,
                           isSuperAdmin: bool, tenant: Tenant)
    requires Coherent(st)
    ensures Coherent(Sync(st, tenants, user, isSuperAdmin))
    ensures Coherent(SetCurrentTenant(st, tenant, isSuperAdmin))
  {
  }

  /** Running the sync step twice is the same as running it once. */
  lemma SyncIdempotent(st: TenantState, tenants: seq<Tenant>, user: Option<User>, isSuperAdmin: bool)
    ensures Sync(Sync(st, tenants, user, isSuperAdmin), tenants, user, isSuperAdmin)
         == Sync(st, tenants, user, isSuperAdmin)
  {
  }
}

=== FILE: use_subscription.dfy ===
/** The subscription hook: it fills in defaults for a tenant's billing data,
    then decides whether the subscription has expired, whether a feature is
    permitted and whether a numeric limit still has room.

    Dates are abstract: a day number, or a date string that failed to parse.
    The clock is the parameter `today`. */
module SubscriptionHook {
  import opened Wrappers
  import opened JsText
  import opened Subscription

  /** A subscription status. The hook receives untyped tenant data, so a
      status string outside the four it compares against is kept as it is. */
  datatype SubscriptionStatus = Active | Canceled | PastDue | Trialing | Unrecognised(raw: string)

  /** An ISO date string after parsing: a day number, or an invalid date. */
  datatype IsoDate = ValidDate(day: int) | InvalidDate

  /** The billing fields the hook reads off a tenant. A field that is missing
      or holds the empty string is `None`: both are falsy. */
  datatype TenantSubscriptionData = TenantSubscriptionData(
    planId: Option<PlanTier>,
    subscriptionStatus: Option<string>,
    trialEndsAt: Option<IsoDate>)

  /** The subscription after defaults have been filled in. */
  datatype SubscriptionState = SubscriptionState(
    planId: PlanTier,
    status: SubscriptionStatus,
    trialEndsAt: Option<IsoDate>)

  /** A tenant without a trial end date gets one this many days from now. */
  const DefaultTrialDays: int := 14

  /** The four status strings the hook's type declares. */
  predicate KnownStatusKey(key: string) {
    key == "active" || key == "canceled" || key == "past_due" || key == "trialing"
  }

  /** The string a status stands for. */
  function StatusKey(s: SubscriptionStatus): (key: string)
    ensures !s.Unrecognised? ==> KnownStatusKey(key)
    ensures s.Unrecognised? ==> key == s.raw
  {
    match s
    case Active => "active"
    case Canceled => "canceled"
    case PastDue => "past_due"
    case Trialing => "trialing"
    case Unrecognised(raw) => raw
  }

  /** Reads a status string; anything outside the four known values is kept
      unrecognised. */
  function ParseStatus(key: string): (s: SubscriptionStatus)
    ensures StatusKey(s) == key
    ensures s.Unrecognised? <==> !KnownStatusKey(key)
  {
    if key == "active" then Active
    else if key == "canceled" then Canceled
    else if key == "past_due" then PastDue
    else if key == "trialing" then Trialing
    else Unrecognised(key)
  }

  /** A status as the parser produces it: an unrecognised one never holds a
      known string. */
  predicate Canonical(s: SubscriptionStatus) {
    ParseStatus(StatusKey(s)) == s
  }

  /** Parsing and printing a status are inverse on canonical statuses, and
      every status but an unrecognised known string is canonical. */
  lemma StatusRoundTrip(s: SubscriptionStatus, key: string)
    ensures Canonical(s) <==> !(s.Unrecognised? && KnownStatusKey(s.raw))
    ensures Canonical(ParseStatus(key))
    ensures StatusKey(ParseStatus(key)) == key
  {
  }

  /** The memoised default subscription: a missing plan means trial, a
      missing status means trialing, a missing trial end means fourteen days
      from now. A status string that is present is kept, known or not. */
  function ResolveSubscription(data: Option<TenantSubscriptionData>, today: int): (s: SubscriptionState)
    ensures data.None? || data.value.planId.None? ==> s.planId == Trial
    ensures data.Some? && data.value.planId.Some? ==> s.planId == data.value.planId.value
    ensures data.None? || !Truthy(data.value.subscriptionStatus) ==> s.status == Trialing
    ensures data.Some? && Truthy(data.value.subscriptionStatus) ==>
      StatusKey(s.status) == data.value.subscriptionStatus.value
    ensures Canonical(s.status)
    ensures s.trialEndsAt.Some?
    ensures data.Some? && data.value.trialEndsAt.Some? ==> s.trialEndsAt == data.value.trialEndsAt
    ensures data.None? || data.value.trialEndsAt.None? ==> s.trialEndsAt == Some(ValidDate(today + DefaultTrialDays))
  {
    match data
    case None => SubscriptionState(Trial, Trialing, Some(ValidDate(today + DefaultTrialDays)))
    case Some(d) =>
      SubscriptionState(
        d.planId.GetOr(Trial),
        ParseStatus(OrElse(d.subscriptionStatus, "trialing")),
        Some(d.trialEndsAt.GetOr(ValidDate(today + DefaultTrialDays))))
  }

  /** The plan record the hook returns. */
  function PlanOf(s: SubscriptionState): SubscriptionPlan {
    Plan(s.planId)
  }

  /** `status === 'trialing'`. */
  function IsTrial(s: SubscriptionState): (trial: bool)
    ensures trial ==> StatusKey(s.status) == "trialing"
    ensures Canonical(s.status) ==> (trial <==> StatusKey(s.status) == "trialing")
  {
    s.status == Trialing
  }

  /** Whole days left in a trial, never negative; zero outside a trial or
      without a usable end date. */
  function DaysRemaining(s: SubscriptionState, today: int): (d: nat)
    ensures !IsTrial(s) ==> d == 0
    ensures s.trialEndsAt.None? || s.trialEndsAt == Some(InvalidDate) ==> d == 0
    ensures d > 0 <==> IsTrial(s) && s.trialEndsAt.Some? && s.trialEndsAt.value.ValidDate?
                       && s.trialEndsAt.value.day > today
    ensures d > 0 ==> d == s.trialEndsAt.value.day - today
  {
    if !IsTrial(s) || s.trialEndsAt.None? then 0
    else match s.trialEndsAt.value
      case InvalidDate => 0
      case ValidDate(end) => if end - today < 0 then 0 else end - today
  }

  /** Only a trial that has run out counts as expired: one whose end date is
      missing, unparsable, or not after today. */
  function IsExpired(s: SubscriptionState, today: int): (expired: bool)
    ensures expired <==> IsTrial(s) && !(s.trialEndsAt.Some? && s.trialEndsAt.value.ValidDate?
                                         && s.trialEndsAt.value.day > today)
  {
    if s.status == Active then false
    else if IsTrial(s) && DaysRemaining(s, today) <= 0 then true
    else false
  }

  /** The expiry rule in terms of the subscription itself. */
  lemma ExpiryRule(s: SubscriptionState, today: int)
    ensures s.status == Active ==> !IsExpired(s, today)
    ensures s.status == Canceled || s.status == PastDue ==> !IsExpired(s, today)
    ensures s.status.Unrecognised? ==> !IsExpired(s, today)
    ensures IsExpired(s, today) <==>
      s.status == Trialing && !(s.trialEndsAt.Some? && s.trialEndsAt.value.ValidDate?
                                && s.trialEndsAt.value.day > today)
  {
  }

  /** Access to a feature: nothing when expired, otherwise the plan's flag for
      a module and plain access for the limit and support keys. */
  function CheckPermission(s: SubscriptionState, today: int, k: FeatureKey): (allowed: bool)
    ensures IsExpired(s, today) ==> !allowed
    ensures !IsExpired(s, today) && IsModule(k) ==> (allowed <==> Grants(s.planId, k))
    ensures !IsExpired(s, today) && !IsModule(k) ==> allowed
  {
    if IsExpired(s, today) then false
    else match FeatureOf(PlanOf(s).features, k)
      case Flag(b) => b
      case _ => true
  }

  /** Room under a numeric limit: `'unlimited'` always has room, a number has
      room while the count is below it, and a non-limit key never does. */
  function CheckLimit(s: SubscriptionState, today: int, k: FeatureKey, currentCount: int): (allowed: bool)
    ensures IsExpired(s, today) ==> !allowed
    ensures !k.MaxEmployees? ==> !allowed
    ensures !IsExpired(s, today) && k.MaxEmployees? && PlanOf(s).features.maxEmployees.Unlimited? ==> allowed
    ensures !IsExpired(s, today) && k.MaxEmployees? && PlanOf(s).features.maxEmployees.UpTo? ==>
      (allowed <==> currentCount < PlanOf(s).features.maxEmployees.count)
  {
    if IsExpired(s, today) then false
    else match FeatureOf(PlanOf(s).features, k)
      case Cap(Unlimited) => true
      case Cap(UpTo(n)) => currentCount < n
      case _ => false
  }

  /** A status string the hook does not know is never a trial, so such a
      subscription never runs out and its plan's flags apply as they are. */
  lemma UnrecognisedStatusNeverExpires(data: TenantSubscriptionData, today: int, k: FeatureKey)
    requires Truthy(data.subscriptionStatus) && !KnownStatusKey(data.subscriptionStatus.value)
    ensures var s := ResolveSubscription(Some(data), today);
      && s.status == Unrecognised(data.subscriptionStatus.value)
      && !IsTrial(s) && DaysRemaining(s, today) == 0 && !IsExpired(s, today)
      && (IsModule(k) ==> (CheckPermission(s, today, k) <==> Grants(s.planId, k)))
  {
  }

  /** An expired subscription denies every feature and every limit. */
  lemma ExpiredDeniesEverything(s: SubscriptionState, today: int, k: FeatureKey, count: int)
    requires IsExpired(s, today)
    ensures !CheckPermission(s, today, k)
    ensures !CheckLimit(s, today, k, count)
  {
  }

  /** A limit that has room at `n` has room at every smaller count. */
  lemma CheckLimitMonotone(s: SubscriptionState, today: int, k: FeatureKey, n: int, m: int)
    requires m <= n
    requires CheckLimit(s, today, k, n)
    ensures CheckLimit(s, today, k, m)
  {
  }

  /** A tenant with no billing data starts a fresh fourteen-day trial with
      every feature unlocked. */
  lemma DefaultIsFullTrial(today: int, k: FeatureKey, count: int)
    ensures ResolveSubscription(None, today).planId == Trial
    ensures DaysRemaining(ResolveSubscription(None, today), today) == DefaultTrialDays
    ensures !IsExpired(ResolveSubscription(None, today), today)
    ensures CheckPermission(ResolveSubscription(None, today), today, k)
    ensures k.MaxEmployees? ==> CheckLimit(ResolveSubscription(None, today), today, k, count)
  {
  }
}

=== FILE: utils.dfy ===
/** `getInitials`: up to `maxCharacters` upper-cased word initials of a name,
    with fallbacks for blank input. Case mapping covers ASCII letters only. */
module Utils {
  import opened Wrappers
  import opened JsText

  const DefaultMaxCharacters: int := 2

  /** `s.split(/\s+/)`: the pieces between maximal whitespace runs. A leading
      or trailing run yields an empty piece at that end. */
  function SplitWhitespace(s: string): (parts: seq<string>)
    ensures |parts| >= 1
    ensures forall p :: p in parts ==> NoWhitespace(p)
    ensures s != [] && !IsWhitespace(s[0]) ==> parts[0] != ""
    decreases |s|
  {
    if s == [] then [""]
    else if IsWhitespace(s[0]) then [""] + SplitWhitespace(TrimStart(s))
    else
      var rest := SplitWhitespace(s[1..]);
      assert rest[0] in rest;
      assert NoWhitespace([s[0]] + rest[0]);
      [[s[0]] + rest[0]] + rest[1..]
  }

  /** `.filter(Boolean)`: the non-empty pieces, in order. */
  function NonEmpty(parts: seq<string>): (r: seq<string>)
    ensures forall j :: 0 <= j < |r| ==> r[j] != ""
    ensures forall p :: p in r <==> p in parts && p != ""
    ensures parts != [] && parts[0] != "" ==> r != [] && r[0] == parts[0]
  {
    if parts == [] then []
    else if parts[0] == "" then NonEmpty(parts[1..])
    else [parts[0]] + NonEmpty(parts[1..])
  }

  /** The words of a value: trimmed, split on whitespace, empty pieces dropped. */
  function Words(value: string): (words: seq<string>)
    ensures forall j :: 0 <= j < |words| ==> words[j] != ""
    ensures forall w :: w in words ==> NoWhitespace(w)
  {
    NonEmpty(SplitWhitespace(Trim(value)))
  }

  /** `part[0]?.toUpperCase() ?? ""`. */
  function Initial(part: string): (r: string)
    ensures part != "" ==> r == [UpperChar(part[0])]
    ensures part == "" ==> r == ""
  {
    if part == "" then "" else [UpperChar(part[0])]
  }

  /** `initials.join("")`. */
  function JoinInitials(parts: seq<string>): (r: string)
    ensures (forall j :: 0 <= j < |parts| ==> parts[j] != "") ==>
      |r| == |parts| && forall i :: 0 <= i < |parts| ==> r[i] == UpperChar(parts[i][0])
  {
    if parts == [] then ""
    else
      var tail := JoinInitials(parts[1..]);
      assert (forall j :: 0 <= j < |parts| ==> parts[j] != "") ==>
        forall i :: 1 <= i < |parts| ==> tail[i - 1] == UpperChar(parts[i][0]) by {
        if forall j :: 0 <= j < |parts| ==> parts[j] != "" {
          assert forall j :: 0 <= j < |parts[1..]| ==> parts[1..][j] != "";
        }
      }
      Initial(parts[0]) + tail
  }

  /** `getInitials(value, maxCharacters)`. */
  function GetInitials(value: string, maxCharacters: int): (r: string)
    ensures value == "" ==> r == ""
    ensures value != "" && Words(value) == [] ==> r == Upper(SliceTo(value, maxCharacters))
    ensures Words(value) != [] && maxCharacters >= 1 ==>
      r == SliceTo(JoinInitials(Words(value)), maxCharacters)
  {
    if value == "" then ""
    else
      var parts := Words(value);
      if parts == [] then Upper(SliceTo(value, maxCharacters))
      else
        var joined := JoinInitials(parts);
        var head := SliceTo(joined, maxCharacters);
        assert maxCharacters >= 1 ==> head != "" by {
          assert |joined| == |parts|;
        }
        if head != "" then head else Upper(SliceTo(value, maxCharacters))
  }

  /** The call with the optional count: `maxCharacters` defaults to two. */
  function GetInitialsOpt(value: string, maxCharacters: Option<int>): (r: string)
    ensures maxCharacters.None? ==> r == GetInitials(value, DefaultMaxCharacters)
    ensures maxCharacters.Some? ==> r == GetInitials(value, maxCharacters.value)
  {
    GetInitials(value, maxCharacters.GetOr(DefaultMaxCharacters))
  }

  /** Some character of `s` is not whitespace. */
  predicate NonBlank(s: string) {
    exists i :: 0 <= i < |s| && !IsWhitespace(s[i])
  }

  /** Trimming the front never removes a non-whitespace character. */
  lemma TrimStartKeeps(s: string, i: nat)
    requires i < |s| && !IsWhitespace(s[i])
    ensures |s| - |TrimStart(s)| <= i
  {
  }

  /** Trimming the back never removes a non-whitespace character. */
  lemma {:induction false} TrimEndKeeps(s: string, i: nat)
    requires i < |s| && !IsWhitespace(s[i])
    ensures i < |TrimEnd(s)|
  {
    if IsWhitespace(s[|s| - 1]) {
      TrimEndKeeps(s[..|s| - 1], i);
    }
  }

  lemma TrimOfNonBlank(s: string)
    requires NonBlank(s)
    ensures Trim(s) != [] && !IsWhitespace(Trim(s)[0])
  {
    var i :| 0 <= i < |s| && !IsWhitespace(s[i]);
    TrimStartKeeps(s, i);
    var t := TrimStart(s);
    assert t != [];
    TrimEndKeeps(t, 0);
    assert TrimEnd(t)[0] == t[0];
  }

  lemma TrimOfBlank(s: string)
    requires !NonBlank(s)
    ensures Trim(s) == []
  {
  }

  /** A value has words exactly when it is not blank. */
  lemma WordsOfValue(value: string)
    ensures Words(value) != [] <==> NonBlank(value)
  {
    if NonBlank(value) {
      TrimOfNonBlank(value);
    } else {
      TrimOfBlank(value);
      assert SplitWhitespace([]) == [""];
      assert [""][1..] == [];
      assert NonEmpty([""]) == NonEmpty([]) == [];
    }
  }

  /** A blank, non-empty value gives its own first characters, upper-cased. */
  lemma BlankValueFallsBack(value: string, maxCharacters: int)
    requires value != "" && !NonBlank(value)
    ensures GetInitials(value, maxCharacters) == Upper(SliceTo(value, maxCharacters))
  {
    WordsOfValue(value);
  }

  /** With at least one word and a positive count: one upper-cased initial per
      word, in order, cut to the count. */
  lemma InitialsOfWords(value: string, maxCharacters: int)
    requires NonBlank(value) && maxCharacters >= 1
    ensures var r := GetInitials(value, maxCharacters);
      var words := Words(value);
      && |r| == (if |words| < maxCharacters then |words| else maxCharacters)
      && forall i :: 0 <= i < |r| ==> r[i] == UpperChar(words[i][0])
  {
    WordsOfValue(value);
    var words := Words(value);
    var joined := JoinInitials(words);
    assert |joined| == |words|;
    var r := SliceTo(joined, maxCharacters);
    assert GetInitials(value, maxCharacters) == r;
    assert forall i :: 0 <= i < |r| ==> r[i] == joined[i];
  }

  /** With at least one word, the fallback of the last line is reached only
      for a count of zero or below. */
  lemma FallbackNeedsNonPositiveCount(value: string, maxCharacters: int)
    requires NonBlank(value)
    requires SliceTo(JoinInitials(Words(value)), maxCharacters) == ""
    ensures maxCharacters <= 0
  {
    WordsOfValue(value);
    assert |JoinInitials(Words(value))| == |Words(value)|;
  }

  /** When `v` has a non-whitespace character, appending text after it leaves
      the leading run, and so the front trim, unchanged. */
  lemma TrimStartOfAppend(v: string, tail: string)
    requires NonBlank(v)
    ensures TrimStart(v + tail) == TrimStart(v) + tail
  {
    var k := LeadingWhitespace(v);
    var i :| 0 <= i < |v| && !IsWhitespace(v[i]);
    assert k <= i;
    assert (v + tail)[k] == v[k];
    assert forall j :: 0 <= j < k ==> (v + tail)[j] == v[j];
    assert LeadingWhitespace(v + tail) == k;
    assert (v + tail)[k..] == v[k..] + tail;
  }

  lemma {:induction false} TrimEndSkipsPad(x: string, pad: string)
    requires AllWhitespace(pad)
    ensures TrimEnd(x + pad) == TrimEnd(x)
    decreases |pad|
  {
    if pad == [] {
      assert x + pad == x;
    } else {
      var shorter := pad[..|pad| - 1];
      assert (x + pad)[..|x + pad| - 1] == x + shorter;
      TrimEndSkipsPad(x, shorter);
    }
  }

  /** Whitespace around a non-blank value does not change its trimmed form. */
  lemma TrimIgnoresPadding(pad: string, v: string, tail: string)
    requires AllWhitespace(pad) && AllWhitespace(tail) && NonBlank(v)
    ensures Trim(pad + v + tail) == Trim(v)
  {
    assert pad + v + tail == pad + (v + tail);
    TrimStartSkipsPad(pad, v + tail);
    TrimStartOfAppend(v, tail);
    TrimEndSkipsPad(TrimStart(v), tail);
  }

  /** Leading and trailing whitespace do not change the initials of a
      non-blank value, for any count of zero or more. */
  lemma InitialsIgnorePadding(pad: string, v: string, tail: string, maxCharacters: int)
    requires AllWhitespace(pad) && AllWhitespace(tail) && NonBlank(v)
    requires maxCharacters >= 0
    ensures GetInitials(pad + v + tail, maxCharacters) == GetInitials(v, maxCharacters)
  {
    TrimIgnoresPadding(pad, v, tail);
    WordsOfValue(v);
    var padded := pad + v + tail;
    assert Words(padded) == Words(v);
    assert padded != "" && v != "";
    if maxCharacters == 0 {
      ZeroCountIsEmpty(padded);
      ZeroCountIsEmpty(v);
    }
  }

  /** A count of zero gives the empty string for every value. */
  lemma ZeroCountIsEmpty(value: string)
    ensures GetInitials(value, 0) == ""
  {
    assert SliceTo(value, 0) == "";
    assert Upper("") == "";
  }

  /** With a negative count the fallback reads the untrimmed value, so a
      leading space shows up in the result. */
  lemma PaddingMattersForNegativeCount()
    ensures GetInitials(" ab", -1) == " A"
    ensures GetInitials("ab", -1) == "A"
  {
    assert SplitWhitespace("") == [""];
    assert "b"[1..] == "";
    assert ['b'] + "" == "b";
    assert SplitWhitespace("b") == ["b"];
    assert "ab"[1..] == "b";
    assert ['a'] + "b" == "ab";
    assert SplitWhitespace("ab") == ["ab"];
    assert Trim("ab") == "ab";
    assert Words("ab") == ["ab"];
    assert TrimStart(" ab") == "ab";
    assert Trim(" ab") == "ab";
    assert Words(" ab") == ["ab"];
    assert JoinInitials(["ab"]) == "A";
  }

  // ------------------------------------------------ what a word is

  /** Filtering works on each part of a list separately, keeping order and
      repeats. */
  lemma {:induction false} NonEmptyAppend(p: seq<string>, q: seq<string>)
    ensures NonEmpty(p + q) == NonEmpty(p) + NonEmpty(q)
  {
    if p == [] {
      assert p + q == q;
    } else {
      assert (p + q)[0] == p[0];
      assert (p + q)[1..] == p[1..] + q;
      NonEmptyAppend(p[1..], q);
    }
  }

  /** One more piece is kept exactly when it is non-empty. */
  lemma NonEmptySnoc(p: seq<string>, piece: string)
    ensures NonEmpty(p + [piece]) == NonEmpty(p) + (if piece == "" then [] else [piece])
  {
    NonEmptyAppend(p, [piece]);
    assert [piece][1..] == [];
  }

  /** Text before the first whitespace run extends the first piece. */
  lemma {:induction false} SplitPrefix(a: string, t: string)
    requires NoWhitespace(a)
    ensures SplitWhitespace(a + t) == [a + SplitWhitespace(t)[0]] + SplitWhitespace(t)[1..]
  {
    if a == [] {
      assert a + t == t;
      assert a + SplitWhitespace(t)[0] == SplitWhitespace(t)[0];
    } else {
      assert (a + t)[0] == a[0];
      assert (a + t)[1..] == a[1..] + t;
      SplitPrefix(a[1..], t);
      assert [a[0]] + (a[1..] + SplitWhitespace(t)[0]) == a + SplitWhitespace(t)[0];
    }
  }

  /** A string starting with a whitespace run splits into an empty piece and
      the pieces of what follows the run. */
  lemma SplitOfRun(ws: string, b: string)
    requires ws != [] && AllWhitespace(ws)
    ensures SplitWhitespace(ws + b) == [""] + SplitWhitespace(TrimStart(b))
  {
    assert (ws + b)[0] == ws[0];
    TrimStartSkipsPad(ws, b);
  }

  /** A whitespace-free string is a single piece. */
  lemma SplitOfWord(w: string)
    requires NoWhitespace(w)
    ensures SplitWhitespace(w) == [w]
  {
    SplitPrefix(w, "");
    assert w + "" == w;
  }

  /** Splitting cuts at each maximal whitespace run: the text before the run
      is one piece, and the pieces of the rest follow. */
  lemma SplitWhitespaceRun(a: string, ws: string, b: string)
    requires NoWhitespace(a)
    requires ws != [] && AllWhitespace(ws)
    requires b == [] || !IsWhitespace(b[0])
    ensures SplitWhitespace(a + ws + b) == [a] + SplitWhitespace(b)
  {
    assert a + ws + b == a + (ws + b);
    SplitPrefix(a, ws + b);
    SplitOfRun(ws, b);
    assert TrimStart(b) == b;
    assert SplitWhitespace(ws + b)[0] == "" && SplitWhitespace(ws + b)[1..] == SplitWhitespace(b);
    assert a + "" == a;
  }

  /** The non-empty pieces of a string, before any trimming. */
  function Tokens(s: string): seq<string> {
    NonEmpty(SplitWhitespace(s))
  }

  lemma DropEmptyHead(rest: seq<string>)
    ensures NonEmpty([""] + rest) == NonEmpty(rest)
  {
    assert ([""] + rest)[1..] == rest;
  }

  /** A string's leading whitespace run contributes no token. */
  lemma TokensOfTrimStart(s: string)
    ensures Tokens(TrimStart(s)) == Tokens(s)
  {
    if s != [] && IsWhitespace(s[0]) {
      var t := TrimStart(s);
      var lead := s[..|s| - |t|];
      assert s == lead + t;
      assert lead[0] == s[0];
      SplitOfRun(lead, t);
      assert TrimStart(t) == t;
      DropEmptyHead(SplitWhitespace(t));
    }
  }

  lemma TokensSkipLeading(ws: string, s: string)
    requires AllWhitespace(ws)
    ensures Tokens(ws + s) == Tokens(s)
  {
    if ws == [] {
      assert ws + s == s;
    } else {
      SplitOfRun(ws, s);
      DropEmptyHead(SplitWhitespace(TrimStart(s)));
      TokensOfTrimStart(s);
    }
  }

  /** A non-empty word followed by whitespace or nothing is the first token. */
  lemma TokensWordFirst(w: string, s: string)
    requires w != [] && NoWhitespace(w)
    requires s == [] || IsWhitespace(s[0])
    ensures Tokens(w + s) == [w] + Tokens(s)
  {
    var parts := SplitWhitespace(s);
    SplitPrefix(w, s);
    assert parts[0] == "";
    assert parts == [""] + parts[1..];
    DropEmptyHead(parts[1..]);
    assert w + parts[0] == w;
    var joined := [w] + parts[1..];
    assert joined[0] == w && joined[1..] == parts[1..];
  }

  /** The length of the whitespace-free text at the front of `s`. */
  function WordEnd(s: string): (k: nat)
    ensures k <= |s| && NoWhitespace(s[..k])
    ensures k == |s| || IsWhitespace(s[k])
    ensures s != [] && !IsWhitespace(s[0]) ==> k > 0
  {
    if s == [] || IsWhitespace(s[0]) then 0
    else
      var k := 1 + WordEnd(s[1..]);
      assert s[..k] == [s[0]] + s[1..][..k - 1];
      k
  }

  /** Tokens on either side of a whitespace run are kept apart and in order. */
  lemma {:induction false} TokensAppendRun(a: string, ws: string, b: string)
    requires ws != [] && AllWhitespace(ws)
    ensures Tokens(a + ws + b) == Tokens(a) + Tokens(b)
    decreases |a|
  {
    if a == [] {
      TokensRunEmptyCase(a, ws, b);
    } else if IsWhitespace(a[0]) {
      TokensAppendRun(TrimStart(a), ws, b);
      TokensRunSpaceCase(a, ws, b);
    } else {
      var k := WordEnd(a);
      CutAt(a, k);
      assert a[k..] == [] || a[k..][0] == a[k];
      TokensAppendRun(a[k..], ws, b);
      TokensRunWordCase(a[..k], a[k..], ws, b);
    }
  }

  lemma TokensRunEmptyCase(a: string, ws: string, b: string)
    requires a == [] && ws != [] && AllWhitespace(ws)
    ensures Tokens(a + ws + b) == Tokens(a) + Tokens(b)
  {
    assert a + ws + b == ws + b;
    TokensSkipLeading(ws, b);
    assert SplitWhitespace(a) == [""];
    DropEmptyHead([]);
  }

  lemma TokensRunSpaceCase(a: string, ws: string, b: string)
    requires a != [] && IsWhitespace(a[0])
    requires Tokens(TrimStart(a) + ws + b) == Tokens(TrimStart(a)) + Tokens(b)
    ensures Tokens(a + ws + b) == Tokens(a) + Tokens(b)
  {
    var t := TrimStart(a);
    var lead := a[..|a| - |t|];
    CutAt(a, |a| - |t|);
    Regroup(a, lead, t, ws, b);
    TokensSkipLeading(lead, t + ws + b);
    TokensSkipLeading(lead, t);
  }

  lemma TokensRunWordCase(w: string, rest: string, ws: string, b: string)
    requires w != [] && NoWhitespace(w)
    requires rest == [] || IsWhitespace(rest[0])
    requires ws != [] && AllWhitespace(ws)
    requires Tokens(rest + ws + b) == Tokens(rest) + Tokens(b)
    ensures Tokens(w + rest + ws + b) == Tokens(w + rest) + Tokens(b)
  {
    var x := rest + ws + b;
    calc {
      Tokens(w + rest + ws + b);
      { Regroup(w + rest, w, rest, ws, b); }
      Tokens(w + x);
      { HeadOfJoin(rest, ws, b); TokensWordFirst(w, x); }
      [w] + Tokens(x);
      [w] + (Tokens(rest) + Tokens(b));
      ([w] + Tokens(rest)) + Tokens(b);
      { TokensWordFirst(w, rest); }
      Tokens(w + rest) + Tokens(b);
    }
  }

  /** Trimming does not change the tokens, so the words of a value are its
      tokens. */
  lemma WordsAreTokens(value: string)
    ensures Words(value) == Tokens(value)
  {
    var t := TrimStart(value);
    var e := TrimEnd(t);
    TokensOfTrimStart(value);
    TokensOfTrimEnd(t);
  }

  /** A trailing whitespace run contributes no token. */
  lemma TokensOfTrimEnd(t: string)
    ensures Tokens(TrimEnd(t)) == Tokens(t)
  {
    var e := TrimEnd(t);
    var pad := t[|e|..];
    CutAt(t, |e|);
    if pad != [] {
      calc {
        Tokens(t);
        { assert t == e + pad + ""; }
        Tokens(e + pad + "");
        { TokensAppendRun(e, pad, ""); }
        Tokens(e) + Tokens("");
        { NoTokens(); }
        Tokens(e);
      }
    }
  }

  lemma NoTokens()
    ensures Tokens("") == []
  {
    assert SplitWhitespace("") == [""];
    DropEmptyHead([]);
  }

  /** A whitespace-free, non-empty value is a single word. */
  lemma WordsOfWord(w: string)
    requires w != "" && NoWhitespace(w)
    ensures Words(w) == [w]
  {
    WordsAreTokens(w);
    TokensWordFirst(w, "");
    assert w + "" == w;
    assert SplitWhitespace("") == [""];
    DropEmptyHead([]);
  }

  /** The words of two parts joined by whitespace are the words of the first
      part followed by the words of the second: nothing merged, dropped or
      reordered. */
  lemma WordsSplitAtRun(a: string, ws: string, b: string)
    requires ws != [] && AllWhitespace(ws)
    ensures Words(a + ws + b) == Words(a) + Words(b)
  {
    WordsAreTokens(a + ws + b);
    WordsAreTokens(a);
    WordsAreTokens(b);
    TokensAppendRun(a, ws, b);
  }

  // ------------------------------------------------ sequence bookkeeping
  // Facts about concatenation used by the word lemmas above: a string is its
  // prefix followed by its suffix, concatenation re-associates around a cut,
  // and a join that starts with whitespace keeps starting with it.

  /** A string is its prefix followed by its suffix. */
  lemma CutAt(a: string, k: nat)
    requires k <= |a|
    ensures a == a[..k] + a[k..]
  {
  }

  /** Re-associating a string cut in two, with two more parts appended. */
  lemma Regroup(a: string, p: string, q: string, ws: string, b: string)
    requires a == p + q
    ensures a + ws + b == p + (q + ws + b)
  {
  }

  /** A part that is empty or starts with whitespace, followed by a non-empty
      whitespace run, starts with whitespace. */
  lemma HeadOfJoin(rest: string, ws: string, b: string)
    requires ws != []
    requires rest == [] || IsWhitespace(rest[0])
    requires AllWhitespace(ws)
    ensures IsWhitespace((rest + ws + b)[0])
  {
  }
}

=== FILE: wrappers.dfy ===
/** The optional value used wherever the program reads a field that may be
    absent (`undefined`, `null`) or a storage slot that may be empty. */
module Wrappers {

  datatype Option<+T> = None | Some(value: T) {

    /** The wrapped value, or `default` when there is none. */
    function GetOr(default: T): T {
      match this
      case Some(v) => v
      case None => default
    }
  }
}
